=== FILE: README.md ===
# OIDC relying-party core, modelled in Dafny

This project models the core of a Laravel package that lets an application sign users
in through an external OpenID Connect authorization server. It uses the Authorization
Code flow with PKCE and hands the session to a separate frontend through a one-time
exchange code. The model covers two source files.

`src/Http/Controllers/OidcController.php` is modelled by the class
`Controller.OidcController`. It holds the caller's session, the shared cache and the
user table, and changes them in place:

- `redirect` stores a fresh state and code verifier and builds the authorize URL with
  the S256 challenge.
- `callback` consumes the pending attempt and checks the state. It then exchanges the
  code, fetches the claims, stores the user and issues an exchange code. Provider errors
  and failures are turned into a redirect to the frontend.
- `exchange` pulls the exchange code from the cache and answers with an API token, or 401.

`src/Services/OidcService.php` is modelled by module `Service`:

- the token exchange and the userinfo fetch, as decisions on the provider's reply;
- the user mapping and upsert, with `UserTable` as the users table;
- revocation, the SSO logout URL and `isOidcUser`.

Supporting modules:

- `Base64`: PHP's `base64_encode` and the S256 challenge, with the challenge proved to be
  unpadded base64url (section 5 of RFC 4648) that decodes back to the digest.
- `UrlCodec`: `urlencode` and `http_build_query`, with a decoder proved to be their
  inverse. Strings are Unicode text whose PHP byte form is UTF-8.
- `Json`: decoded JSON values and PHP's truthiness, `empty()` and `??`.
- `Http`: provider replies, Laravel's `failed()` and `successful()`, and the outbound requests.
- `Config`: the configuration and its defaults (`config/oidc-client.php`), and the
  translated messages (`resources/lang/en/messages.php`).
- `Users`: the users table with Eloquent's `updateOrCreate` and `update`.
- `Cache`: Laravel's cache `put`, `get` and `pull`, with expiry.
- `Scenarios`: the whole login flow on one controller, and the worked first-login example.

Behaviour of the code that the model keeps:

- A provider `error` parameter is passed to the frontend as given
  (`src/Http/Controllers/OidcController.php:65-76`). The code has no allow-list of error
  codes. The package's test `tests/Feature/OidcCallbackTest.php:32-40` expects an unknown
  code to be reported as `unknown_error`; this code does not do that.
- The provider error travels in the redirect's query string. No session key is written
  for it, although `tests/Feature/OidcFlowTest.php:21-27` expects a session key `oidc_error`.
- After the state check, the two `catch` clauses report a failure as `auth_failed` with
  the exception's message, or as `server_unreachable` with a fixed message for a
  `ConnectionException`. There are no separate codes for a malformed response or a
  missing claim.
- Three failures escape both `catch` clauses and end the request with HTTP 500:
  - a userinfo answer without an `email` key under the shipped attribute mapping
    (`config/oidc-client.php:73-74` reads `$userinfo['email']` without a default);
  - a failed token exchange whose `error_description` (or, when that is null, `error`)
    is an array (`src/Services/OidcService.php:100` concatenates it into the message);
  - a token answer whose `access_token` is a non-empty array. It is handed to
    `fetchUserInfo(string $accessToken)` (`src/Http/Controllers/OidcController.php:96`,
    `src/Services/OidcService.php:119`), which throws a `TypeError` before the userinfo
    request is made.

  PHP reports the first two as warnings ("Undefined array key", "Array to string
  conversion"). Laravel turns a warning into an `ErrorException`. Neither that nor a
  `TypeError` is a `RuntimeException` or a `ConnectionException`.
- `findOrCreateUser` reads the identifier as `$userData[$identifierClaim]`
  (`src/Services/OidcService.php:166`). A missing key raises, so nothing is stored.
  The callback never reaches that read without the claim, because `fetchUserInfo`
  rejects an empty identifier claim.
- The frontend is redirected to `{frontend}/auth/callback`, both on success and on error.
- The message of a failed token exchange includes the provider's `error_description`
  or `error` text.
- The callback does not call `findOrCreateUser`. It repeats the same steps inline
  (`src/Http/Controllers/OidcController.php:99-123`), so the model uses
  `Service.FindOrCreateUser` for both.

## Model

| member | source | states |
|---|---|---|
| Base64.Encode | src/Http/Controllers/OidcController.php:29 | `base64_encode` of n bytes has 4 * ceil(n/3) characters, padding included |
| Base64.SextetsLength | src/Http/Controllers/OidcController.php:29 | base64 of n bytes, without padding, has ceil(4n/3) characters |
| Base64.BlockArithmetic | src/Http/Controllers/OidcController.php:29 | the digits and the `=` padding of n bytes fill exactly 4 * ceil(n/3) characters |
| Base64.RegroupThree | src/Http/Controllers/OidcController.php:29 | the four 6-bit digits of a 3-byte group regroup into exactly those bytes |
| Base64.UnsextetsGroup | src/Http/Controllers/OidcController.php:29 | four digits followed by decodable digits decode to their three bytes followed by the rest |
| Base64.TwoRoundTrip | src/Http/Controllers/OidcController.php:29 | a final group of two bytes, written as three digits, decodes back to the two bytes |
| Base64.OneRoundTrip | src/Http/Controllers/OidcController.php:29 | a final group of one byte, written as two digits, decodes back to that byte |
| Base64.SextetsRoundTrip | src/Http/Controllers/OidcController.php:29 | splitting bytes into 6-bit groups loses nothing: regrouping gives the bytes back |
| Base64.UrlValuesOfUrlChars | src/Http/Controllers/OidcController.php:29 | the base64url alphabet is decoded back to the 6-bit values it encodes |
| Base64.RTrimPadding | src/Http/Controllers/OidcController.php:29 | `rtrim(..., '=')` removes exactly the padding `base64_encode` adds |
| Base64.ChallengeIsUrlNoPad | src/Http/Controllers/OidcController.php:29 | `strtr(rtrim(base64_encode(d), '='), '+/', '-_')` is unpadded base64url of d |
| Base64.Challenge | src/Http/Controllers/OidcController.php:29 | the S256 challenge of a digest is its unpadded base64url encoding (section 4.2 of RFC 7636) |
| Base64.ChallengeLength | src/Http/Controllers/OidcController.php:29 | the challenge of a 32-byte SHA-256 digest has 43 characters |
| Base64.ChallengeUrlSafe | src/Http/Controllers/OidcController.php:29 | the challenge uses only A-Z a-z 0-9 - _, and never '=', '+' or '/' |
| Base64.ChallengeRoundTrip | src/Http/Controllers/OidcController.php:29 | decoding the challenge as unpadded base64url gives back the digest |
| UrlCodec.Utf8 | src/Http/Controllers/OidcController.php:34-42 | a character's UTF-8 form is 1 to 4 bytes |
| UrlCodec.Utf8Head | src/Http/Controllers/OidcController.php:34-42 | decoding one UTF-8 character consumes between 1 and all of the given bytes |
| UrlCodec.Utf8HeadOfUtf8 | src/Http/Controllers/OidcController.php:34-42 | the UTF-8 decoder reads back any character from its encoding, whatever follows |
| UrlCodec.Utf8HeadTwo | src/Http/Controllers/OidcController.php:34-42 | as above, for 2-byte characters |
| UrlCodec.Utf8HeadThree | src/Http/Controllers/OidcController.php:34-42 | as above, for 3-byte characters, surrogates excluded |
| UrlCodec.Utf8HeadFour | src/Http/Controllers/OidcController.php:34-42 | as above, for 4-byte characters |
| UrlCodec.HexValue | src/Http/Controllers/OidcController.php:34-42 | a hex digit's value is in 0..15 |
| UrlCodec.HexDigitValue | src/Http/Controllers/OidcController.php:34-42 | the upper-case hex digit `urlencode` writes reads back as its value |
| UrlCodec.EncodeChar | src/Http/Controllers/OidcController.php:34-42 | `urlencode` of one character yields only unreserved characters, '+' and `%XY` escapes |
| UrlCodec.UrlEncode | src/Http/Controllers/OidcController.php:34-42 | `urlencode` output holds only unreserved characters, '+' and escapes, so never '&' or '=' |
| UrlCodec.PercentDecodeBytes | src/Http/Controllers/OidcController.php:34-42 | percent-decoding `%XX` escapes gives back the escaped bytes |
| UrlCodec.PercentDecodeChar | src/Http/Controllers/OidcController.php:34-42 | decoding an encoded character gives its UTF-8 bytes, also for space written as '+' |
| UrlCodec.PercentDecodeUrlEncode | src/Http/Controllers/OidcController.php:34-42 | percent-decoding `urlencode(s)` gives the UTF-8 bytes of s |
| UrlCodec.Utf8DecodeText | src/Http/Controllers/OidcController.php:34-42 | UTF-8 decoding the encoding of a text gives the text back |
| UrlCodec.UrlDecodeEncode | src/Http/Controllers/OidcController.php:34-42 | `urldecode(urlencode(s)) == s` for every text |
| UrlCodec.PercentBytesEncoded | src/Http/Controllers/OidcController.php:34-42 | an escaped byte is written only with '%' and hex digits |
| UrlCodec.UrlEncodeUnreserved | src/Http/Controllers/OidcController.php:34-42 | text of only A-Z a-z 0-9 - _ . is left unchanged by `urlencode` |
| UrlCodec.Split | src/Http/Controllers/OidcController.php:34-42 | splitting on a separator gives at least one part |
| UrlCodec.SplitPrefix | src/Http/Controllers/OidcController.php:34-42 | a part without the separator, followed by it, is split off as the first part |
| UrlCodec.SplitNoSep | src/Http/Controllers/OidcController.php:34-42 | text without the separator splits into itself |
| UrlCodec.SplitJoin | src/Http/Controllers/OidcController.php:34-42 | splitting the join of separator-free parts gives the parts back |
| UrlCodec.SplitFirstAt | src/Http/Controllers/OidcController.php:34-42 | a field splits at its first '=' into key and value |
| UrlCodec.FieldHasNoAmpersand | src/Http/Controllers/OidcController.php:34-42 | an encoded `key=value` field contains no '&' |
| UrlCodec.Fields | src/Http/Controllers/OidcController.php:34-42 | the query has one encoded field per pair, in the order of the pairs |
| UrlCodec.ParseFieldOfField | src/Http/Controllers/OidcController.php:34-42 | an encoded field decodes back to its key and value |
| UrlCodec.ParseFieldsOfFields | src/Http/Controllers/OidcController.php:34-42 | the list of encoded fields decodes back to the pairs, one field per pair, in order |
| UrlCodec.ParseJoinedFields | src/Http/Controllers/OidcController.php:34-42 | the '&'-joined encoded fields parse back to exactly the pairs, in order |
| UrlCodec.BuildQuery | src/Http/Controllers/OidcController.php:34-42 | `http_build_query` loses nothing: parsing its output gives the same pairs in the same order |
| UrlCodec.WithQuery | src/Http/Controllers/OidcController.php:48-50 | `$base.'?'.$query` starts with the base and '?', and the rest parses back to exactly the pairs |
| UrlCodec.LookupAt | src/Http/Controllers/OidcController.php:34-42 | a query parameter is found at its first occurrence |
| Json.TruthyIffNotFalsy | src/Services/OidcService.php:73 | a value is truthy exactly when it is none of null, false, 0, "", "0" and the empty array |
| Cache.Put | src/Http/Controllers/OidcController.php:140 | `Cache::put` with a positive lifetime stores the value until now plus the lifetime; a non-positive lifetime leaves the key absent; every other key is unchanged |
| Cache.Read | src/Http/Controllers/OidcController.php:172 | a key reads as its value exactly while now is before its expiry, and as nothing when absent or expired |
| Cache.Pull | src/Http/Controllers/OidcController.php:172 | `Cache::pull` answers the live value or nothing, removes the key so that it reads as absent at every time, and leaves every other key unchanged |
| Cache.KeyInjective | src/Http/Controllers/OidcController.php:140 | distinct exchange codes use distinct cache keys |
| Cache.PutAddsOneEntry | src/Http/Controllers/OidcController.php:140 | issuing a new code adds one entry and leaves the others alone |
| Cache.ExpiredReadsAsAbsent | src/Http/Controllers/OidcController.php:172-174 | an expired entry reads exactly like a missing one |
| Cache.PutThenRead | src/Http/Controllers/OidcController.php:140 | a stored code reads back strictly before its expiry and not after |
| Config.DefaultResolvesIffEmail | config/oidc-client.php:72-75 | the shipped mapping completes exactly when the claims have an `email` key; then `email` is that claim and `name` is the name claim, or the email when the name is null or absent |
| Config.Default | config/oidc-client.php:68-76 | the shipped user mapping is valid: distinct columns, and the identifier column is not overwritten by an attribute |
| Users.FindRow | src/Services/OidcService.php:165-168 | the lookup finds the first row whose identifier matches, or reports that none does |
| Users.Upsert | src/Services/OidcService.php:165-168 | `updateOrCreate` returns the id of a row of the new table |
| Users.FindUniqueRow | src/Services/OidcService.php:165-168 | with unique identifiers, the lookup finds the one row holding a given identifier |
| Users.UpsertSpec | src/Services/OidcService.php:165-168 | the upsert writes the identifier and every attribute to the returned row. It adds a row only when none matched and leaves every other row unchanged. The row written is the first row holding the identifier, and its other columns are kept; a new row holds only the identifier and the attributes |
| Users.UpsertKeepsUnique | src/Services/OidcService.php:165-168 | an upsert keyed on a non-null identifier keeps identifiers unique |
| Users.UserTable.constructor | src/Services/OidcService.php:152 | a table starts with the given rows |
| Users.UserTable.UpdateOrCreate | src/Services/OidcService.php:165-168 | the table after `updateOrCreate` is the upsert of the table before |
| Users.UserTable.Update | src/Services/OidcService.php:170-172 | `update` writes one column of one row and nothing else |
| Service.ProviderReason | src/Services/OidcService.php:100 | the reason is `error_description`, else `error`, else "Unknown error"; it is missing (the conversion raises) exactly when the chosen field is an array |
| Service.ExchangeCodeForTokens | src/Services/OidcService.php:81-112 | a connection failure is "unreachable". A status of 400 or more fails with "Token exchange failed: " + the provider's reason and the status, or raises uncaught when that reason is an array. A response without a truthy `access_token` fails. It succeeds exactly otherwise, with the body unchanged |
| Service.UserInfoTimeout | src/Services/OidcService.php:124 | the userinfo timeout is the HTTP timeout minus 5 seconds, but never below 5 |
| Service.FetchUserInfo | src/Services/OidcService.php:119-141 | a connection failure is "unreachable"; a status of 400 or more fails with "Failed to fetch user info"; claims without the identifier claim fail naming it. It succeeds exactly otherwise, with the claims unchanged |
| Service.SsoLogoutUrl | src/Services/OidcService.php:59-64 | the logout URL is host + logout path + '?' + a query that parses back to exactly one parameter, `post_logout_redirect_uri`, set to the frontend URL |
| Service.IsOidcUser | src/Services/OidcService.php:69-74 | a user is an OIDC user exactly when there is one and its identifier column holds none of the values `empty()` accepts |
| Service.MapAttributesSpec | src/Services/OidcService.php:158-163 | the attributes hold exactly the mapped columns. With distinct columns, each holds its resolver's value or the named claim (null if absent) |
| Service.BuildAttributes | src/Services/OidcService.php:158-163 | the `foreach` completes exactly when every resolver returns, and then builds exactly those attributes; it stops at the first resolver that raises |
| Service.StoreUser | src/Services/OidcService.php:150-175 | storing a user returns the id of a row of the new table. The identifier claim must be present, as `$userData[$identifierClaim]` demands |
| Service.FindOrCreateUser | src/Services/OidcService.php:150-175 | no id is returned exactly when a resolver raises or the identifier claim is missing, and then nothing is stored. Otherwise the table is the upsert of the mapped attributes, plus the refresh token when it is truthy |
| Service.SetColumnKeepsUnique | src/Services/OidcService.php:170-172 | writing a non-identifier column keeps identifiers unique |
| Service.StoreUserKeepsIdentifiersUnique | src/Services/OidcService.php:165-172 | storing a user keeps identifiers unique |
| Service.UpsertedAttributes | src/Services/OidcService.php:158-168 | the row `updateOrCreate` writes holds the identifier claim and every resolver's value; a row is added only for a new identifier and the other rows are unchanged |
| Service.StoredRow | src/Services/OidcService.php:158-172 | after the refresh token is written the user's row still holds the identifier claim and every mapped attribute other than the refresh-token column |
| Service.StoredTable | src/Services/OidcService.php:165-172 | storing a user adds a row only for a new identifier and leaves every other row unchanged |
| Service.StoreUserSpec | src/Services/OidcService.php:150-175 | the stored user holds the identifier claim and every mapped attribute other than the refresh-token column. A row is added only for a new identifier, and every other user is unchanged. An existing user is the first row with the identifier and keeps its unmapped columns; a new user's unmapped columns are null |
| Service.StoredColumns | src/Services/OidcService.php:158-172 | the row written is the first one holding the identifier and keeps every column that is neither mapped nor the refresh-token column; a new row has those columns null |
| Service.UpsertedColumns | src/Services/OidcService.php:158-168 | the row `updateOrCreate` writes is the first match and keeps every unmapped column; a new row holds nothing but the identifier and the mapped attributes |
| Service.RefreshTokenKeptWhenOmitted | src/Services/OidcService.php:170-172 | a supplied refresh token is stored; an omitted one leaves the previously stored token in place |
| Service.RepeatLoginAddsNoRow | src/Services/OidcService.php:165-168 | two logins with the same identifier update one row: same id, no new row |
| Service.StoredUserIsOidcUser | src/Services/OidcService.php:69-74 | a user just stored by the callback is an OIDC user |
| Service.RevokeAuthServerToken | src/Services/OidcService.php:19-54 | no user or no stored token: true, no request, nothing changes. Otherwise: one revoke request for the stored token with hint `refresh_token`; true exactly on a 2xx reply, which alone clears the column |
| Controller.SessionKeysDistinct | src/Http/Controllers/OidcController.php:31-32 | the state and the verifier are kept under different session keys |
| Controller.AuthorizeUrl | src/Http/Controllers/OidcController.php:34-50 | the authorize URL is host + authorize path + '?' + a query that parses back to exactly the seven parameters, in order |
| Controller.AuthorizeParamsNamed | src/Http/Controllers/OidcController.php:34-42 | the parameters ask for `response_type=code` with `code_challenge_method=S256` for the configured client, scopes and redirect URI, and carry the state and the challenge |
| Controller.AuthorizeValuesVerbatim | src/Http/Controllers/OidcController.php:27-42 | a random alphanumeric state and the challenge appear in the query unescaped |
| Controller.ErrorRedirectUrl | src/Http/Controllers/OidcController.php:207-216 | the error redirect goes to `{frontend}/auth/callback?` with a query that parses back to exactly `error` and `error_description` |
| Controller.FailureCode | src/Http/Controllers/OidcController.php:146-161 | a failure is reported as `server_unreachable` exactly for a connection failure, and as `auth_failed` exactly otherwise |
| Controller.FailureMessage | src/Http/Controllers/OidcController.php:146-161 | a connection failure is reported with the fixed "server unreachable" message; any other caught failure with its own message |
| Controller.FailureResponse | src/Http/Controllers/OidcController.php:90-161 | an uncaught failure ends the request with HTTP 500, exactly; a caught one redirects to the frontend with its code and message |
| Controller.StateAccepted | src/Http/Controllers/OidcController.php:82 | the state is accepted exactly when one was pending, it is not "" or "0", and it equals the one returned |
| Controller.ArrayAccessTokenIsUncaught | src/Http/Controllers/OidcController.php:93-97 | an array as access token ends the callback with HTTP 500, and only the token request is made |
| Controller.SignedIn | src/Http/Controllers/OidcController.php:93-123 | a successful sign-in names a user of the new table |
| Controller.Redemption | src/Http/Controllers/OidcController.php:174-201 | a missing or falsy cached value is rejected with 401, exactly; a stored user id, exactly, gets a Bearer token with that user; the answer is never a validation failure |
| Controller.IssuedCodeRedeemsOnce | src/Http/Controllers/OidcController.php:138-186 | a code issued for a user redeems for that user before its ttl ends; a second redemption is rejected with 401 |
| Controller.ExpiredCodeLikeUnknown | src/Http/Controllers/OidcController.php:172-181 | an expired code gets the same answer as a code never issued: 401 |
| Controller.OidcController.constructor | src/Http/Controllers/OidcController.php:20-21 | a controller starts with an empty session and cache over a valid configuration |
| Controller.OidcController.Remember | src/Http/Controllers/OidcController.php:31-32 | the session holds the new state and verifier, replacing any earlier pair; the cache is unchanged and the controller stays valid |
| Controller.OidcController.Redirect | src/Http/Controllers/OidcController.php:25-51 | the session holds the new state and verifier, replacing any earlier attempt, and nothing else changes. The URL is the authorize URL with the S256 challenge of the verifier, which has 43 characters |
| Controller.OidcController.Callback | src/Http/Controllers/OidcController.php:62-162 | a provider error is redirected verbatim (default message "Authorization was denied by the user.") and changes nothing. Otherwise the pending attempt is consumed. A bad state aborts 403 with no request made. Caught failures redirect as `auth_failed` or `server_unreachable`; an array-valued error reason, an array as access token or a resolver that raises gives HTTP 500; in all these the user table and cache are unchanged. Success stores the user, caches the exchange code for the ttl and redirects with it |
| Controller.OidcController.Exchange | src/Http/Controllers/OidcController.php:169-202 | a code that is not a UUID gets 422 and changes nothing. Otherwise the code is removed from the cache, and the answer is the redemption of the value it held while live |
| Scenarios.Start | src/Http/Controllers/OidcController.php:25-33 | after one `redirect` on a new controller exactly that attempt is pending, and its state is one the callback accepts |
| Scenarios.SignIn | src/Http/Controllers/OidcController.php:25-144 | a redirect followed by a callback with the same state and good replies stores the user, caches the code and consumes the attempt |
| Scenarios.LoginFlow | src/Http/Controllers/OidcController.php:25-202 | end to end, the code redeems once for the stored user; a replayed callback gets 403 and a replayed exchange 401 |
| Scenarios.ExampleAttributes | config/oidc-client.php:72-75 | with the shipped mapping, claims sub u1 plus an email, and no name, give the email as both name and email |
| Scenarios.ExampleStored | src/Services/OidcService.php:165-172 | that user, stored with RT1 in an empty table, becomes the one row with u1, the email as name and email, and RT1 |
| Scenarios.FirstLoginExample | src/Http/Controllers/OidcController.php:90-144 | with the shipped mapping, tokens AT1/RT1 and claims sub u1 plus an email create one user with u1, that email as name and email, and RT1 |

## Left out

- HTTP transport: retries (`retry_times`, `retry_delay`) are not modelled; a reply stands for the final outcome after retries. Timeouts are recorded in the modelled requests but not enforced.
- Basic authentication, `acceptJson` and the form encoding of the POST bodies are not modelled. The request records only its URL, fields, hint and timeout.
- SHA-256, `Str::random`, `Str::uuid`, the clock and the JWT guard's `login` are parameters of the methods.
- Logging the user in on the web guard and `session()->regenerate()` are not modelled. The session holds only the pending-attempt keys.
- Events (`OidcAuthFailed`, `OidcUserAuthenticated`, `OidcTokenExchanged`) and logging are not modelled.
- JSON floats and the contents of nested arrays and objects are not modelled. What matters to the core about an array is whether it is empty, that converting one to text raises, and that passing one as the access token is a `TypeError`.
- A reply body that is not a JSON object is treated as an empty object.
- A callback without a `code` parameter, or with non-string parameters, is not modelled. In PHP this is a type error (HTTP 500).
- Laravel's empty-string-to-null middleware is not modelled. Request parameters arrive as given.
- Mass-assignment `$fillable` filtering and the encrypted cast of the refresh-token column are not modelled.
- Users are rows whose id is their position plus one. Deletions and database exceptions during the upsert are not modelled.
- Concurrency is not modelled: the atomicity of `Cache::pull` and racing first logins for the same identifier.
- Controller.OidcController.Exchange: a cached value that is a truthy non-integer (never written by the callback) is answered as a missing user, where `findOrFail` would look it up as given.
- Service.RevokeAuthServerToken: the `?? 10` fallback for a missing HTTP timeout is not modelled, because the modelled configuration always has a timeout.
- Service.StoreUser and Users.Upsert: their own contracts only bound the returned id. What they store is stated by Service.StoreUserSpec and Users.UpsertSpec.
- The exception classes (`src/Exceptions`) are not part of this model. `OidcServerException` and `OidcException` are both taken to be `RuntimeException`s, which the first `catch` clause handles. For `OidcServerException` the package's test `tests/Feature/OidcCallbackTest.php:49-63` shows this; for `OidcException` (the model's `ProtocolError`) it is an assumption.
- Controller.OidcController.constructor: requires `Config.Valid`, which excludes a mapping that writes the identifier column and an identifier column equal to the refresh-token column. The package rejects neither configuration; the model does not describe what such a configuration does to the user table.
- A string resolver that happens to name a PHP function (`is_callable('trim')`) is called as a function by the package. The model treats every string resolver as a claim name.
- The service provider, routes and rate limiting are not part of this model.

=== FILE: base64.dfy ===
/**
 * The PKCE code challenge of the authorization request:
 * `strtr(rtrim(base64_encode($digest), '='), '+/', '-_')`, i.e. the standard base64
 * encoding of section 4 of RFC 4648 with its padding stripped and its two
 * non-URL-safe characters swapped for those of section 5. The digest itself
 * (SHA-256 of the verifier) is an input.
 */
module Base64 {
  import opened Wrappers
  import opened Bytes

  /** One base64 digit value. */
  type Sextet = x: int | 0 <= x < 64

  /**
   * The 6-bit groups of `d`, most significant bits first; a final group of one or
   * two bytes is completed with zero bits (RFC 4648, section 4).
   */
  function Sextets(d: seq<Byte>): seq<Sextet>
    decreases |d|
  {
    if |d| == 0 then []
    else if |d| == 1 then [d[0] / 4, (d[0] % 4) * 16]
    else if |d| == 2 then [d[0] / 4, (d[0] % 4) * 16 + d[1] / 16, (d[1] % 16) * 4]
    else [d[0] / 4, (d[0] % 4) * 16 + d[1] / 16, (d[1] % 16) * 4 + d[2] / 64, d[2] % 64] + Sextets(d[3..])
  }

  /** The inverse of `Sextets`; a lone trailing digit carries no whole byte. */
  function Unsextets(xs: seq<Sextet>): Option<seq<Byte>>
    decreases |xs|
  {
    if |xs| < 2 then (if xs == [] then Some([]) else None)
    else
      var x0: int, x1: int := xs[0], xs[1];
      if |xs| == 2 then Some([x0 * 4 + x1 / 16])
      else
        var x2: int := xs[2];
        if |xs| == 3 then Some([x0 * 4 + x1 / 16, (x1 % 16) * 16 + x2 / 4])
        else
          var x3: int := xs[3];
          match Unsextets(xs[4..])
          case None => None
          case Some(rest) => Some([x0 * 4 + x1 / 16, (x1 % 16) * 16 + x2 / 4, (x2 % 4) * 64 + x3] + rest)
  }

  /** The standard alphabet of RFC 4648, section 4. */
  function StdChar(x: Sextet): char
  {
    if x < 26 then ('A' as int + x) as char
    else if x < 52 then ('a' as int + (x - 26)) as char
    else if x < 62 then ('0' as int + (x - 52)) as char
    else if x == 62 then '+'
    else '/'
  }

  /** The URL- and filename-safe alphabet of RFC 4648, section 5. */
  function UrlChar(x: Sextet): char
  {
    if x < 62 then StdChar(x) else if x == 62 then '-' else '_'
  }

  /** The digit value of a character of the URL-safe alphabet. */
  function UrlValue(c: char): Option<Sextet>
  {
    if 'A' <= c <= 'Z' then Some(c as int - 'A' as int)
    else if 'a' <= c <= 'z' then Some(c as int - 'a' as int + 26)
    else if '0' <= c <= '9' then Some(c as int - '0' as int + 52)
    else if c == '-' then Some(62)
    else if c == '_' then Some(63)
    else None
  }

  /** The '=' characters that complete the last 4-character block. */
  function Padding(d: seq<Byte>): string
  {
    if |d| % 3 == 1 then "==" else if |d| % 3 == 2 then "=" else ""
  }

  /** PHP's `base64_encode`: whole 4-character blocks, one per started 3-byte group. */
  function Encode(d: seq<Byte>): (r: string)
    ensures |r| == 4 * ((|d| + 2) / 3)
  {
    SextetsLength(d);
    BlockArithmetic(|d|);
    var xs := Sextets(d);
    seq(|xs|, i requires 0 <= i < |xs| => StdChar(xs[i])) + Padding(d)
  }

  /** PHP's `rtrim($s, $c)` for a single character. */
  function RTrim(s: string, c: char): string
    decreases |s|
  {
    if |s| > 0 && s[|s| - 1] == c then RTrim(s[..|s| - 1], c) else s
  }

  /** PHP's `strtr($s, '+/', '-_')`. */
  function Translate(s: string): string
  {
    seq(|s|, i requires 0 <= i < |s| => if s[i] == '+' then '-' else if s[i] == '/' then '_' else s[i])
  }

  /**
   * The code challenge as the controller computes it from the digest; it is the
   * base64url encoding without padding of RFC 7636, appendix A.
   */
  function Challenge(digest: seq<Byte>): (r: string)
    ensures r == UrlNoPad(digest)
  {
    ChallengeIsUrlNoPad(digest);
    Translate(RTrim(Encode(digest), '='))
  }

  /** Base64url without padding (RFC 7636, appendix A), as a reference definition. */
  function UrlNoPad(d: seq<Byte>): string
  {
    var xs := Sextets(d);
    seq(|xs|, i requires 0 <= i < |xs| => UrlChar(xs[i]))
  }

  function UrlValues(s: string): Option<seq<Sextet>>
    decreases |s|
  {
    if s == [] then Some([])
    else
      match (UrlValue(s[0]), UrlValues(s[1..]))
      case (Some(x), Some(rest)) => Some([x] + rest)
      case _ => None
  }

  /** Decoding of unpadded base64url text back into bytes. */
  function DecodeUrlNoPad(s: string): Option<seq<Byte>>
  {
    match UrlValues(s)
    case None => None
    case Some(xs) => Unsextets(xs)
  }

  /** A character that may appear in a base64url text without padding. */
  predicate UrlSafe(c: char)
  {
    'A' <= c <= 'Z' || 'a' <= c <= 'z' || '0' <= c <= '9' || c == '-' || c == '_'
  }

  lemma {:induction false} SextetsLength(d: seq<Byte>)
    ensures |Sextets(d)| == (4 * |d| + 2) / 3
    decreases |d|
  {
    if |d| >= 3 {
      SextetsLength(d[3..]);
    }
  }

  /** Digits plus padding fill whole 4-character blocks. */
  lemma BlockArithmetic(n: nat)
    ensures (4 * n + 2) / 3 + (if n % 3 == 1 then 2 else if n % 3 == 2 then 1 else 0) == 4 * ((n + 2) / 3)
  {
    var q, m := n / 3, n % 3;
    assert n == 3 * q + m;
    if m == 0 {
      assert 4 * n + 2 == 3 * (4 * q) + 2;
      assert n + 2 == 3 * q + 2;
    } else if m == 1 {
      assert 4 * n + 2 == 3 * (4 * q + 2);
      assert n + 2 == 3 * (q + 1);
    } else {
      assert 4 * n + 2 == 3 * (4 * q + 3) + 1;
      assert n + 2 == 3 * (q + 1) + 1;
    }
  }

  /** Regrouping the four digits of a 3-byte group gives the bytes back. */
  lemma RegroupThree(a: Byte, b: Byte, c: Byte)
    ensures var x0: int, x1: int, x2: int, x3: int := a / 4, (a % 4) * 16 + b / 16, (b % 16) * 4 + c / 64, c % 64;
      x0 * 4 + x1 / 16 == a && (x1 % 16) * 16 + x2 / 4 == b && (x2 % 4) * 64 + x3 == c
  {
    var x1: int, x2: int := (a % 4) * 16 + b / 16, (b % 16) * 4 + c / 64;
    assert x1 / 16 == a % 4 && x1 % 16 == b / 16;
    assert x2 / 4 == b % 16 && x2 % 4 == c / 64;
  }

  /** A whole group of four digits decodes to three bytes ahead of the rest. */
  lemma UnsextetsGroup(g: seq<Sextet>, rest: seq<Sextet>, tail: seq<Byte>)
    requires |g| == 4 && Unsextets(rest) == Some(tail)
    ensures var x0: int, x1: int, x2: int, x3: int := g[0], g[1], g[2], g[3];
      Unsextets(g + rest) == Some([x0 * 4 + x1 / 16, (x1 % 16) * 16 + x2 / 4, (x2 % 4) * 64 + x3] + tail)
  {
    assert (g + rest)[4..] == rest;
  }

  lemma {:induction false} SextetsRoundTrip(d: seq<Byte>)
    ensures Unsextets(Sextets(d)) == Some(d)
    decreases |d|
  {
    if |d| >= 3 {
      SextetsRoundTrip(d[3..]);
      RegroupThree(d[0], d[1], d[2]);
      var g: seq<Sextet> := [d[0] / 4, (d[0] % 4) * 16 + d[1] / 16, (d[1] % 16) * 4 + d[2] / 64, d[2] % 64];
      assert Sextets(d) == g + Sextets(d[3..]);
      UnsextetsGroup(g, Sextets(d[3..]), d[3..]);
      assert d == [d[0], d[1], d[2]] + d[3..];
    } else if |d| == 2 {
      assert d == [d[0], d[1]];
      TwoRoundTrip(d[0], d[1]);
    } else if |d| == 1 {
      assert d == [d[0]];
      OneRoundTrip(d[0]);
    }
  }

  /** A final group of two bytes decodes back. */
  lemma TwoRoundTrip(a: Byte, b: Byte)
    ensures Unsextets(Sextets([a, b])) == Some([a, b])
  {
    var x0: int, x1: int, x2: int := a / 4, (a % 4) * 16 + b / 16, (b % 16) * 4;
    assert Sextets([a, b]) == [x0, x1, x2];
    assert x1 / 16 == a % 4 && x1 % 16 == b / 16 && x2 / 4 == b % 16;
  }

  /** A final group of one byte decodes back. */
  lemma OneRoundTrip(a: Byte)
    ensures Unsextets(Sextets([a])) == Some([a])
  {
    var x0: int, x1: int := a / 4, (a % 4) * 16;
    assert Sextets([a]) == [x0, x1];
    assert x1 / 16 == a % 4;
  }

  lemma {:induction false} UrlValuesOfUrlChars(xs: seq<Sextet>)
    ensures UrlValues(seq(|xs|, i requires 0 <= i < |xs| => UrlChar(xs[i]))) == Some(xs)
    decreases |xs|
  {
    var s := seq(|xs|, i requires 0 <= i < |xs| => UrlChar(xs[i]));
    if xs != [] {
      UrlValuesOfUrlChars(xs[1..]);
      assert s[1..] == seq(|xs[1..]|, i requires 0 <= i < |xs[1..]| => UrlChar(xs[1..][i]));
      assert UrlValue(s[0]) == Some(xs[0]);
      assert xs == [xs[0]] + xs[1..];
    }
  }

  /** Trailing padding goes, and nothing else, because no base64 digit is '='. */
  lemma RTrimPadding(body: string, d: seq<Byte>)
    requires forall i :: 0 <= i < |body| ==> body[i] != '='
    ensures RTrim(body + Padding(d), '=') == body
  {
    RTrimStop(body, '=');
    if |d| % 3 == 0 {
      assert body + Padding(d) == body;
    } else {
      var one := body + "=";
      RTrimDrop(body, '=');
      if |d| % 3 == 1 {
        assert body + Padding(d) == one + "=";
        RTrimDrop(one, '=');
      }
    }
  }

  /** `rtrim` stops at a last character other than the trimmed one. */
  lemma RTrimStop(s: string, c: char)
    requires |s| > 0 ==> s[|s| - 1] != c
    ensures RTrim(s, c) == s
  {
  }

  /** `rtrim` drops a trailing trimmed character and goes on. */
  lemma RTrimDrop(s: string, c: char)
    ensures RTrim(s + [c], c) == RTrim(s, c)
  {
    assert (s + [c])[..|s|] == s;
  }

  /** `strtr(rtrim(base64_encode($d), '='), '+/', '-_')` is base64url without padding of `d`. */
  lemma ChallengeIsUrlNoPad(digest: seq<Byte>)
    ensures Translate(RTrim(Encode(digest), '=')) == UrlNoPad(digest)
  {
    var xs := Sextets(digest);
    var body := seq(|xs|, i requires 0 <= i < |xs| => StdChar(xs[i]));
    RTrimPadding(body, digest);
  }

  /** The challenge has ceil(4n/3) characters: 43 for a 32-byte SHA-256 digest. */
  lemma ChallengeLength(digest: seq<Byte>)
    ensures |Challenge(digest)| == (4 * |digest| + 2) / 3
    ensures |digest| == 32 ==> |Challenge(digest)| == 43
  {
    SextetsLength(digest);
  }

  /** The challenge uses only the URL-safe alphabet: no '=', '+' or '/'. */
  lemma ChallengeUrlSafe(digest: seq<Byte>)
    ensures forall i :: 0 <= i < |Challenge(digest)| ==> UrlSafe(Challenge(digest)[i])
    ensures forall i :: 0 <= i < |Challenge(digest)| ==> Challenge(digest)[i] !in "=+/"
  {
  }

  /** The challenge determines the digest: decoding it gives the digest back. */
  lemma ChallengeRoundTrip(digest: seq<Byte>)
    ensures DecodeUrlNoPad(Challenge(digest)) == Some(digest)
  {
    UrlValuesOfUrlChars(Sextets(digest));
    SextetsRoundTrip(digest);
  }
}

=== FILE: bytes.dfy ===
/** The octets of a PHP byte string. */
module Bytes {
  type Byte = b: int | 0 <= b < 256
}

=== FILE: cache.dfy ===
/**
 * The one-time exchange-code store: Laravel's cache as a map from key to value
 * and expiry time (in seconds), with the `put`, `get` and `pull` the controller uses.
 * The clock is an input.
 */
module Cache {
  import opened Wrappers
  import opened Json
  import UrlCodec

  datatype Entry = Entry(value: Json, expiresAt: int)

  type Store = map<string, Entry>

  /** The cache key under which an exchange code is stored. */
  function Key(code: string): string
  {
    "oidc_exchange_" + code
  }

  /** `Cache::put($key, $value, $seconds)`: a non-positive lifetime forgets the key instead. */
  function Put(store: Store, key: string, value: Json, now: int, seconds: int): (r: Store)
    ensures seconds > 0 ==> key in r && r[key] == Entry(value, now + seconds)
    ensures seconds <= 0 ==> key !in r
    ensures forall k :: k != key ==> (k in r <==> k in store) && (k in r ==> r[k] == store[k])
  {
    if seconds <= 0 then store - {key} else store[key := Entry(value, now + seconds)]
  }

  /** `Cache::get($key)`: an entry is live strictly before its expiry time. */
  function Read(store: Store, key: string, now: int): (r: Option<Json>)
    ensures key !in store ==> r == None
    ensures key in store ==> (r.Some? <==> now < store[key].expiresAt)
    ensures r.Some? ==> r.value == store[key].value
  {
    if key in store && now < store[key].expiresAt then Some(store[key].value) else None
  }

  /** `Cache::pull($key)`: get, then forget, whether or not the entry was live. */
  function Pull(store: Store, key: string, now: int): (r: (Option<Json>, Store))
    ensures r.0 == if key in store && now < store[key].expiresAt then Some(store[key].value) else None
    ensures forall t :: Read(r.1, key, t) == None
    ensures forall k :: k != key ==> (k in r.1 <==> k in store) && (k in r.1 ==> r.1[k] == store[k])
  {
    (Read(store, key, now), store - {key})
  }

  /** Laravel's `uuid` validation rule: 8-4-4-4-12 hexadecimal digits. */
  predicate IsUuid(s: string)
  {
    && |s| == 36
    && (forall i :: 0 <= i < 36 && i in {8, 13, 18, 23} ==> s[i] == '-')
    && (forall i :: 0 <= i < 36 && i !in {8, 13, 18, 23} ==> UrlCodec.IsHex(s[i]))
  }

  /** Distinct codes have distinct keys. */
  lemma KeyInjective(a: string, b: string)
    requires Key(a) == Key(b)
    ensures a == b
  {
    assert a == Key(a)[14..];
    assert b == Key(b)[14..];
  }

  /** Putting a fresh code with a positive lifetime adds exactly one entry. */
  lemma PutAddsOneEntry(store: Store, key: string, value: Json, now: int, seconds: int)
    requires key !in store && seconds > 0
    ensures |Put(store, key, value, now, seconds)| == |store| + 1
    ensures Put(store, key, value, now, seconds) - {key} == store
  {
    assert Put(store, key, value, now, seconds).Keys == store.Keys + {key};
  }

  /** An expired entry reads exactly as a key that was never stored. */
  lemma ExpiredReadsAsAbsent(store: Store, key: string, now: int)
    requires key in store && now >= store[key].expiresAt
    ensures Read(store, key, now) == Read(store - {key}, key, now)
  {
  }

  /** A value put with lifetime `seconds` reads back until, and not from, `now + seconds`. */
  lemma PutThenRead(store: Store, key: string, value: Json, now: int, seconds: int, at: int)
    requires seconds > 0
    ensures Read(Put(store, key, value, now, seconds), key, at) == if at < now + seconds then Some(value) else None
  {
  }
}

=== FILE: config.dfy ===
/**
 * The package configuration (config/oidc-client.php) as one value, with its
 * defaults, and the fixed user-facing messages.
 */
module Config {
  import opened Wrappers
  import opened Json

  /**
   * How one attribute column is filled: a claim copied by name, or a closure over all
   * claims. A closure gives None where it raises (it reads a claim that is not there).
   */
  datatype Resolver = Claim(key: string) | Derived(f: JsonObject -> Option<Json>)

  /** `is_callable($resolver) ? $resolver($claims) : ($claims[$resolver] ?? null)`; None when it raises. */
  function Resolve(r: Resolver, claims: JsonObject): Option<Json>
  {
    match r
    case Claim(key) => Some(Get(claims, key))
    case Derived(f) => f(claims)
  }

  /** Every resolver of the mapping returns, so the `foreach` that runs them completes. */
  predicate MappingResolves(mapping: seq<(string, Resolver)>, claims: JsonObject)
  {
    forall i :: 0 <= i < |mapping| ==> Resolve(mapping[i].1, claims).Some?
  }

  /** The value a resolver gives; a raising one gives null, which is never stored. */
  function Resolved(r: Resolver, claims: JsonObject): Json
  {
    match Resolve(r, claims)
    case Some(v) => v
    case None => JNull
  }

  datatype Config = Config(
    host: string,
    clientId: string,
    clientSecret: string,
    redirectUri: string,
    frontendUrl: string,
    scopes: string,
    authorizePath: string,
    tokenPath: string,
    userinfoPath: string,
    revokePath: string,
    logoutPath: string,
    timeout: int,
    retryTimes: nat,
    retryDelay: nat,
    exchangeCodeTtl: int,
    identifierColumn: string,
    identifierClaim: string,
    refreshTokenColumn: string,
    attributes: seq<(string, Resolver)>)

  /** The columns of an attribute mapping are distinct, as the keys of a PHP array are. */
  predicate DistinctColumns(mapping: seq<(string, Resolver)>)
  {
    forall i, j :: 0 <= i < j < |mapping| ==> mapping[i].0 != mapping[j].0
  }

  predicate MapsColumn(mapping: seq<(string, Resolver)>, column: string)
  {
    exists i :: 0 <= i < |mapping| && mapping[i].0 == column
  }

  /**
   * A usable user mapping: the identifier column is written only from the
   * identifier claim, and is not the refresh-token column.
   */
  predicate Valid(c: Config)
  {
    && DistinctColumns(c.attributes)
    && !MapsColumn(c.attributes, c.identifierColumn)
    && c.identifierColumn != c.refreshTokenColumn
  }

  /**
   * The shipped attribute mapping: `$userinfo['name'] ?? $userinfo['email']` and
   * `$userinfo['email']`. Neither read of the email claim has a default.
   */
  function DefaultAttributes(): seq<(string, Resolver)>
  {
    [ ("name", Derived(claims => if Get(claims, "name") != JNull then Some(claims["name"]) else Index(claims, "email"))),
      ("email", Derived(claims => Index(claims, "email"))) ]
  }

  /**
   * The shipped mapping completes exactly when the claims carry an email key (its
   * value may be null); without one the email resolver raises, whatever the name.
   */
  lemma DefaultResolvesIffEmail(claims: JsonObject)
    ensures MappingResolves(DefaultAttributes(), claims) <==> "email" in claims
    ensures "email" in claims ==>
      && Resolved(DefaultAttributes()[1].1, claims) == claims["email"]
      && Resolved(DefaultAttributes()[0].1, claims) == Coalesce(Get(claims, "name"), claims["email"])
  {
    var m := DefaultAttributes();
    if !("email" in claims) {
      assert Resolve(m[1].1, claims).None?;
    }
  }

  /** The shipped defaults, given the values that come only from the environment. */
  function Default(host: string, clientId: string, clientSecret: string, redirectUri: string): (c: Config)
    ensures Valid(c)
  {
    Config(
      host := host, clientId := clientId, clientSecret := clientSecret, redirectUri := redirectUri,
      frontendUrl := "http://localhost:3000",
      scopes := "openid profile email",
      authorizePath := "/oauth/authorize",
      tokenPath := "/oauth/token",
      userinfoPath := "/api/oauth/userinfo",
      revokePath := "/oauth/revoke",
      logoutPath := "/oauth/logout",
      timeout := 15, retryTimes := 2, retryDelay := 200,
      exchangeCodeTtl := 5,
      identifierColumn := "oidc_sub",
      identifierClaim := "sub",
      refreshTokenColumn := "auth_server_refresh_token",
      attributes := DefaultAttributes())
  }

  const AuthorizationDenied := "Authorization was denied by the user."
  const ServerUnreachable := "The authorization server is currently unreachable."
}

=== FILE: controller.dfy ===
/**
 * The controller (src/Http/Controllers/OidcController.php): the authorization
 * redirect with PKCE, the callback state machine with its error mapping, and the
 * redemption of the one-time exchange code. The session, the shared cache and the
 * user table are the state these steps change.
 *
 * Randomness (`Str::random`, `Str::uuid`), SHA-256, the clock, the provider's
 * answers and the JWT the API guard issues are inputs.
 */
module Controller {
  import opened Wrappers
  import opened Json
  import opened Http
  import opened UrlCodec
  import Bytes
  import Base64
  import Config
  import opened Users
  import Cache
  import Service

  const StateKey := "oidc_state"
  const VerifierKey := "oidc_code_verifier"
  const InvalidState := "Invalid state"

  /** The two session keys of a pending attempt are different keys. */
  lemma SessionKeysDistinct()
    ensures StateKey != VerifierKey
  {
    assert |StateKey| == 10 && |VerifierKey| == 18;
  }

  const InvalidExchangeCode := "Invalid or expired exchange code"
  /** The body of the HTTP 500 answer Laravel gives for an exception nothing catches. */
  const ServerErrorPage := "Server Error"
  /**
   * The TypeError of passing an array as `fetchUserInfo(string $accessToken)`; PHP
   * coerces a number or a boolean to a string there, but never an array.
   */
  const AccessTokenNotString := "Argument #1 ($accessToken) must be of type string, array given"

  // ---------------------------------------------------- authorization request

  /** The parameters of the authorization request (section 4.1.1 of RFC 6749, section 4.3 of RFC 7636). */
  function AuthorizeParams(c: Config.Config, state: string, challenge: string): seq<(string, string)>
  {
    [ ("client_id", c.clientId), ("redirect_uri", c.redirectUri), ("response_type", "code"),
      ("scope", c.scopes), ("state", state), ("code_challenge", challenge),
      ("code_challenge_method", "S256") ]
  }

  /** The authorize endpoint, then a query that reads back as exactly the request's parameters. */
  function AuthorizeUrl(c: Config.Config, state: string, challenge: string): (r: string)
    ensures var base := c.host + c.authorizePath;
      && |r| > |base| && r[..|base| + 1] == base + "?"
      && ParseQuery(r[|base| + 1..]) == Some(AuthorizeParams(c, state, challenge))
  {
    WithQuery(c.host + c.authorizePath, AuthorizeParams(c, state, challenge))
  }

  /**
   * The authorize URL for a fresh attempt whose verifier hashes to `digest`. A method
   * of its own so that the proof of `Redirect` about the session does not also carry
   * the construction of the URL.
   */
  method AuthorizeLocation(c: Config.Config, state: string, digest: seq<Bytes.Byte>) returns (url: string)
    ensures url == AuthorizeUrl(c, state, Base64.Challenge(digest))
  {
    url := AuthorizeUrl(c, state, Base64.Challenge(digest));
  }

  /** The alphabet of `Str::random`. */
  predicate AlphanumericChar(c: char)
  {
    'A' <= c <= 'Z' || 'a' <= c <= 'z' || '0' <= c <= '9'
  }

  predicate Alphanumeric(s: string)
  {
    forall i {:trigger AlphanumericChar(s[i])} :: 0 <= i < |s| ==> AlphanumericChar(s[i])
  }

  /**
   * Those parameters ask for a code with an S256 challenge for the configured client,
   * and carry the state just generated.
   */
  lemma AuthorizeParamsNamed(c: Config.Config, state: string, challenge: string)
    ensures var params := AuthorizeParams(c, state, challenge);
      && Lookup(params, "client_id") == Some(c.clientId)
      && Lookup(params, "redirect_uri") == Some(c.redirectUri)
      && Lookup(params, "response_type") == Some("code")
      && Lookup(params, "scope") == Some(c.scopes)
      && Lookup(params, "state") == Some(state)
      && Lookup(params, "code_challenge") == Some(challenge)
      && Lookup(params, "code_challenge_method") == Some("S256")
  {
    var params := AuthorizeParams(c, state, challenge);
    LookupAt(params, "client_id", 0);
    LookupAt(params, "redirect_uri", 1);
    LookupAt(params, "response_type", 2);
    LookupAt(params, "scope", 3);
    LookupAt(params, "state", 4);
    LookupAt(params, "code_challenge", 5);
    LookupAt(params, "code_challenge_method", 6);
  }

  /** A random alphanumeric state and an S256 challenge appear in the authorize query verbatim. */
  lemma AuthorizeValuesVerbatim(state: string, digest: seq<Bytes.Byte>)
    requires Alphanumeric(state)
    ensures UrlEncode(state) == state
    ensures UrlEncode(Base64.Challenge(digest)) == Base64.Challenge(digest)
  {
    forall i | 0 <= i < |state|
      ensures Unreserved(state[i])
    {
      assert AlphanumericChar(state[i]);
    }
    UrlEncodeUnreserved(state);
    Base64.ChallengeUrlSafe(digest);
    UrlEncodeUnreserved(Base64.Challenge(digest));
  }

  // ------------------------------------------------------------ error redirect

  /**
   * `redirectToFrontendWithError`: the frontend's callback page, with a query that
   * hands it exactly the error code and the message.
   */
  function ErrorRedirectUrl(frontendUrl: string, code: string, message: string): (r: string)
    ensures var base := frontendUrl + "/auth/callback";
      && |r| > |base| && r[..|base| + 1] == base + "?"
      && ParseQuery(r[|base| + 1..]) == Some([("error", code), ("error_description", message)])
  {
    WithQuery(frontendUrl + "/auth/callback", [("error", code), ("error_description", message)])
  }

  /**
   * The error code a caught failure is reported under: "server_unreachable" for a
   * ConnectionException, "auth_failed" for a runtime exception.
   */
  function FailureCode(e: Service.OidcError): (r: string)
    requires !e.Uncaught?
    ensures r == "server_unreachable" <==> e.Unreachable?
    ensures r == "auth_failed" <==> !e.Unreachable?
  {
    if e.Unreachable? then "server_unreachable" else "auth_failed"
  }

  /**
   * The message a caught failure is reported with: the exception's own, except that
   * an unreachable server gets the fixed translated message instead.
   */
  function FailureMessage(e: Service.OidcError): (r: string)
    requires !e.Uncaught?
    ensures e.Unreachable? ==> r == Config.ServerUnreachable
    ensures !e.Unreachable? ==> r == e.message
  {
    if e.Unreachable? then Config.ServerUnreachable else e.message
  }

  // ----------------------------------------------------------------- callback

  datatype CallbackRequest = CallbackRequest(
    code: string, state: Option<string>, error: Option<string>, errorDescription: Option<string>)

  datatype CallbackResponse = RedirectTo(url: string) | Abort(status: int, message: string)

  /**
   * How the callback answers a failure of the token exchange or the userinfo fetch:
   * the two `catch` clauses redirect to the frontend with the error; anything else
   * escapes them and ends the request with HTTP 500.
   */
  function FailureResponse(frontendUrl: string, e: Service.OidcError): (r: CallbackResponse)
    ensures e.Uncaught? <==> r == Abort(500, ServerErrorPage)
    ensures !e.Uncaught? ==> r == RedirectTo(ErrorRedirectUrl(frontendUrl, FailureCode(e), FailureMessage(e)))
  {
    if e.Uncaught? then Abort(500, ServerErrorPage)
    else RedirectTo(ErrorRedirectUrl(frontendUrl, FailureCode(e), FailureMessage(e)))
  }

  /**
   * `! $state || $state !== $request->state`, negated: a state was pending, it is not
   * one PHP reads as false ("" or "0"), and the provider returned it unchanged.
   */
  function StateAccepted(stored: Option<string>, given: Option<string>): (r: bool)
    ensures r <==> stored.Some? && stored.value != "" && stored.value != "0" && given == stored
  {
    match stored
    case None => false
    case Some(s) => Truthy(JStr(s)) && given == Some(s)
  }

  function Pending(session: map<string, string>, key: string): Option<string>
  {
    if key in session then Some(session[key]) else None
  }

  /** The requests the callback makes once the state is accepted. */
  function AuthCalls(c: Config.Config, code: string, verifier: string, tokenReply: HttpOutcome): seq<Outbound>
  {
    var tokens := Service.ExchangeCodeForTokens(tokenReply);
    [Service.TokenRequest(c, code, verifier)]
      + if tokens.Success? && !Get(tokens.value, "access_token").JArray?
        then [Service.UserInfoRequest(c, Get(tokens.value, "access_token"))] else []
  }

  /**
   * Token exchange, then userinfo: the tokens and claims, or the first failure. An
   * array-valued access token fails as it is handed to `fetchUserInfo`, before the
   * userinfo request is made.
   */
  function Authenticate(c: Config.Config, tokenReply: HttpOutcome, userInfoReply: HttpOutcome)
    : Result<(JsonObject, JsonObject), Service.OidcError>
  {
    match Service.ExchangeCodeForTokens(tokenReply)
    case Failure(e) => Failure(e)
    case Success(tokens) =>
      if Get(tokens, "access_token").JArray? then Failure(Service.Uncaught(AccessTokenNotString))
      else
        match Service.FetchUserInfo(c, userInfoReply)
        case Failure(e) => Failure(e)
        case Success(claims) => Success((tokens, claims))
  }

  /**
   * A token endpoint that answers 2xx with an array as `access_token` ends the
   * callback with HTTP 500: only the token request is made, and the userinfo reply
   * never matters.
   */
  lemma ArrayAccessTokenIsUncaught(c: Config.Config, status: int, tokens: JsonObject, userInfoReply: HttpOutcome,
                                   code: string, verifier: string)
    requires !Failed(status) && "access_token" in tokens && tokens["access_token"].JArray?
    requires tokens["access_token"].size > 0
    ensures Authenticate(c, Responded(status, tokens), userInfoReply) == Failure(Service.Uncaught(AccessTokenNotString))
    ensures FailureResponse(c.frontendUrl, Authenticate(c, Responded(status, tokens), userInfoReply).error)
         == Abort(500, ServerErrorPage)
    ensures AuthCalls(c, code, verifier, Responded(status, tokens)) == [Service.TokenRequest(c, code, verifier)]
  {
  }

  /** Every resolver of the mapping returns on the claims the userinfo endpoint sent. */
  predicate SignInResolves(config: Config.Config, tokenReply: HttpOutcome, userInfoReply: HttpOutcome)
    requires Authenticate(config, tokenReply, userInfoReply).Success?
  {
    Config.MappingResolves(config.attributes, Authenticate(config, tokenReply, userInfoReply).value.1)
  }

  /** The user table and user id a successful sign-in leaves behind. */
  function SignedIn(config: Config.Config, rows: seq<Row>, tokenReply: HttpOutcome, userInfoReply: HttpOutcome)
    : (r: (seq<Row>, nat))
    requires Authenticate(config, tokenReply, userInfoReply).Success?
    ensures 1 <= r.1 <= |r.0|
  {
    var (tokens, claims) := Authenticate(config, tokenReply, userInfoReply).value;
    Service.StoreUser(rows, config, claims, Get(tokens, "refresh_token"))
  }

  // ----------------------------------------------------------------- exchange

  datatype ExchangeResponse =
    | Exchanged(accessToken: string, tokenType: string, userId: nat, user: Row)
    | Rejected(status: int, message: string)
    | UserNotFound
    /** The `required|uuid` validation failed: 422, nothing is pulled. */
    | Unprocessable(status: int)

  /**
   * What `exchange` answers for the value pulled from the cache: 401 for a missing or
   * falsy value, the API token for the stored user id, and `findOrFail`'s not-found
   * for any other value.
   */
  function Redemption(pulled: Option<Json>, rows: seq<Row>, jwt: string): (r: ExchangeResponse)
    ensures r.Rejected? <==> pulled.None? || pulled.value in Falsy
    ensures r.Rejected? ==> r == Rejected(401, InvalidExchangeCode)
    ensures r.Exchanged? <==> pulled.Some? && pulled.value.JInt? && 1 <= pulled.value.i <= |rows|
    ensures r.Exchanged? ==>
      && pulled == Some(JInt(r.userId)) && r.user == rows[r.userId - 1]
      && r.accessToken == jwt && r.tokenType == "Bearer"
    ensures !r.Unprocessable?
  {
    match pulled
    case None => Rejected(401, InvalidExchangeCode)
    case Some(v) =>
      TruthyIffNotFalsy(v);
      if !Truthy(v) then Rejected(401, InvalidExchangeCode)
      else if v.JInt? && 1 <= v.i <= |rows| then Exchanged(jwt, "Bearer", v.i, rows[v.i - 1])
      else UserNotFound
  }

  /**
   * A code issued for a user redeems for that user while it is live, once: the
   * redemption removes it, and a second redemption is rejected like an unknown code.
   */
  lemma IssuedCodeRedeemsOnce(store: Cache.Store, code: string, id: nat, rows: seq<Row>, now: int, ttl: int,
                              at: int, later: int, jwt: string, jwt2: string)
    requires 1 <= id <= |rows| && ttl > 0 && at < now + ttl * 60
    ensures var issued := Cache.Put(store, Cache.Key(code), JInt(id), now, ttl * 60);
      var (first, afterFirst) := Cache.Pull(issued, Cache.Key(code), at);
      var (second, _) := Cache.Pull(afterFirst, Cache.Key(code), later);
      && Redemption(first, rows, jwt) == Exchanged(jwt, "Bearer", id, rows[id - 1])
      && Redemption(second, rows, jwt2) == Rejected(401, InvalidExchangeCode)
  {
    Cache.PutThenRead(store, Cache.Key(code), JInt(id), now, ttl * 60, at);
  }

  /** An expired code is answered exactly as a code that was never issued. */
  lemma ExpiredCodeLikeUnknown(store: Cache.Store, code: string, rows: seq<Row>, at: int, jwt: string)
    requires Cache.Key(code) in store && at >= store[Cache.Key(code)].expiresAt
    ensures Redemption(Cache.Read(store, Cache.Key(code), at), rows, jwt)
         == Redemption(Cache.Read(store - {Cache.Key(code)}, Cache.Key(code), at), rows, jwt)
    ensures Redemption(Cache.Read(store, Cache.Key(code), at), rows, jwt) == Rejected(401, InvalidExchangeCode)
  {
    Cache.ExpiredReadsAsAbsent(store, Cache.Key(code), at);
  }

  // --------------------------------------------------------------- controller

  class OidcController {
    const config: Config.Config
    const users: UserTable
    /** The caller's session; only the pending-authorization keys are modelled. */
    var session: map<string, string>
    /** The application cache holding the exchange codes. */
    var cache: Cache.Store

    ghost predicate Valid()
      reads this, users
    {
      && Config.Valid(config)
      && (StateKey in session <==> VerifierKey in session)
      && UniqueIdentifiers(users.rows, config.identifierColumn)
    }

    constructor (config: Config.Config, users: UserTable)
      requires Config.Valid(config) && UniqueIdentifiers(users.rows, config.identifierColumn)
      ensures Valid()
      ensures this.config == config && this.users == users && session == map[] && cache == map[]
    {
      this.config := config;
      this.users := users;
      session := map[];
      cache := map[];
    }

    /**
     * `redirect`: store a fresh state and code verifier in the session, replacing any
     * pending attempt, and send the browser to the authorize endpoint.
     * `state` and `verifier` are `Str::random(40)` and `Str::random(128)`; `sha256` is
     * `hash('sha256', $verifier, true)`, a 32-byte digest.
     */
    method Redirect(state: string, verifier: string, sha256: string -> seq<Bytes.Byte>) returns (url: string)
      requires Valid()
      requires |state| == 40 && Alphanumeric(state)
      requires |verifier| == 128 && Alphanumeric(verifier)
      requires forall s :: |sha256(s)| == 32
      modifies this
      ensures Valid()
      ensures session == old(session)[StateKey := state][VerifierKey := verifier]
      ensures cache == old(cache)
      ensures url == AuthorizeUrl(config, state, Base64.Challenge(sha256(verifier)))
      ensures |Base64.Challenge(sha256(verifier))| == 43
    {
      Remember(state, verifier);
      var digest := sha256(verifier);
      Base64.ChallengeLength(digest);
      url := AuthorizeLocation(config, state, digest);
    }

    /** The two `Session::put` calls of `redirect`: a new pending attempt replaces any earlier one. */
    method Remember(state: string, verifier: string)
      requires Valid()
      modifies this
      ensures Valid()
      ensures session == old(session)[StateKey := state][VerifierKey := verifier]
      ensures cache == old(cache)
    {
      SessionKeysDistinct();
      session := session[StateKey := state];
      session := session[VerifierKey := verifier];
    }

    /**
     * `callback`: a provider error is passed back to the frontend untouched; otherwise
     * the pending attempt is consumed, the state checked, the code exchanged, the
     * claims fetched, the user stored and a one-time exchange code issued.
     * `exchangeCode` is `Str::uuid()`; `now` is the clock, in seconds.
     */
    method Callback(request: CallbackRequest, tokenReply: HttpOutcome, userInfoReply: HttpOutcome,
                    exchangeCode: string, now: int)
      returns (response: CallbackResponse, calls: seq<Outbound>)
      requires Valid() && Cache.IsUuid(exchangeCode)
      modifies this, users
      ensures Valid()
      // a provider error touches nothing and calls no endpoint
      ensures request.error.Some? ==>
        && response == RedirectTo(ErrorRedirectUrl(config.frontendUrl, request.error.value,
             if request.errorDescription.Some? then request.errorDescription.value else Config.AuthorizationDenied))
        && calls == [] && session == old(session) && cache == old(cache) && users.rows == old(users.rows)
      // otherwise the pending attempt is consumed, whatever happens next
      ensures request.error.None? ==> session == old(session) - {StateKey, VerifierKey}
      ensures request.error.None? && !StateAccepted(Pending(old(session), StateKey), request.state) ==>
        && response == Abort(403, InvalidState)
        && calls == [] && cache == old(cache) && users.rows == old(users.rows)
      ensures request.error.None? && StateAccepted(Pending(old(session), StateKey), request.state) ==>
        && calls == AuthCalls(config, request.code, old(session)[VerifierKey], tokenReply)
      ensures request.error.None? && StateAccepted(Pending(old(session), StateKey), request.state) &&
              Authenticate(config, tokenReply, userInfoReply).Failure? ==>
        && response == FailureResponse(config.frontendUrl, Authenticate(config, tokenReply, userInfoReply).error)
        && cache == old(cache) && users.rows == old(users.rows)
      // a resolver that raises is caught by nothing
      ensures request.error.None? && StateAccepted(Pending(old(session), StateKey), request.state) &&
              Authenticate(config, tokenReply, userInfoReply).Success? && !SignInResolves(config, tokenReply, userInfoReply) ==>
        && response == Abort(500, ServerErrorPage)
        && cache == old(cache) && users.rows == old(users.rows)
      ensures request.error.None? && StateAccepted(Pending(old(session), StateKey), request.state) &&
              Authenticate(config, tokenReply, userInfoReply).Success? && SignInResolves(config, tokenReply, userInfoReply) ==>
        var (rows, id) := SignedIn(config, old(users.rows), tokenReply, userInfoReply);
        && users.rows == rows
        && cache == Cache.Put(old(cache), Cache.Key(exchangeCode), JInt(id), now, config.exchangeCodeTtl * 60)
        && response == RedirectTo(config.frontendUrl + "/auth/callback?code=" + exchangeCode)
    {
      if request.error.Some? {
        var description :=
          if request.errorDescription.Some? then request.errorDescription.value else Config.AuthorizationDenied;
        response := RedirectTo(ErrorRedirectUrl(config.frontendUrl, request.error.value, description));
        calls := [];
        return;
      }

      SessionKeysDistinct();
      var state := Pending(session, StateKey);
      var verifier := Pending(session, VerifierKey);
      session := session - {StateKey, VerifierKey};

      if !StateAccepted(state, request.state) {
        response := Abort(403, InvalidState);
        calls := [];
        return;
      }

      calls := [Service.TokenRequest(config, request.code, verifier.value)];
      var tokens := Service.ExchangeCodeForTokens(tokenReply);
      if tokens.Failure? {
        response := FailureResponse(config.frontendUrl, tokens.error);
        return;
      }
      var accessToken := Get(tokens.value, "access_token");
      var refreshToken := Get(tokens.value, "refresh_token");
      if accessToken.JArray? {
        response := FailureResponse(config.frontendUrl, Service.Uncaught(AccessTokenNotString));
        return;
      }

      calls := calls + [Service.UserInfoRequest(config, accessToken)];
      var claims := Service.FetchUserInfo(config, userInfoReply);
      if claims.Failure? {
        response := FailureResponse(config.frontendUrl, claims.error);
        return;
      }

      Service.StoreUserKeepsIdentifiersUnique(users.rows, config, claims.value, refreshToken);
      var id := Service.FindOrCreateUser(users, config, claims.value, refreshToken);
      if id.None? {
        response := Abort(500, ServerErrorPage);
        return;
      }

      cache := Cache.Put(cache, Cache.Key(exchangeCode), JInt(id.value), now, config.exchangeCodeTtl * 60);
      response := RedirectTo(config.frontendUrl + "/auth/callback?code=" + exchangeCode);
    }

    /**
     * `exchange`: pull the code from the cache (removing it whether or not it was
     * live) and answer with the API token for its user, or 401.
     * `jwt` is the token the API guard issues for that user.
     */
    method Exchange(code: string, now: int, jwt: string) returns (response: ExchangeResponse)
      requires Valid()
      modifies this
      ensures Valid()
      ensures session == old(session)
      ensures !Cache.IsUuid(code) ==> response == Unprocessable(422) && cache == old(cache)
      ensures Cache.IsUuid(code) ==>
        && cache == old(cache) - {Cache.Key(code)}
        && response == Redemption(Cache.Read(old(cache), Cache.Key(code), now), users.rows, jwt)
    {
      if !Cache.IsUuid(code) {
        response := Unprocessable(422);
        return;
      }
      var (pulled, rest) := Cache.Pull(cache, Cache.Key(code), now);
      cache := rest;
      if pulled.None? || !Truthy(pulled.value) {
        response := Rejected(401, InvalidExchangeCode);
        return;
      }
      if pulled.value.JInt? && 1 <= pulled.value.i <= |users.rows| {
        response := Exchanged(jwt, "Bearer", pulled.value.i, users.rows[pulled.value.i - 1]);
      } else {
        response := UserNotFound;
      }
    }
  }
}

=== FILE: http.dfy ===
/**
 * The outbound HTTP calls to the authorization server, reduced to data: what the
 * relying party sends (recorded as an `Outbound` value) and what comes back
 * (an `HttpOutcome`, supplied by the caller of the model). Timeouts, retries and
 * transport are not modelled; the timeout a call is made with is recorded.
 */
module Http {
  import opened Json

  /** The result of one logical request, after the client's retries. */
  datatype HttpOutcome =
    | Responded(status: int, body: JsonObject)
    | ConnectionFailed(message: string)

  /** Laravel's `Response::successful()`: a 2xx status. */
  predicate Successful(status: int)
  {
    200 <= status < 300
  }

  /** Laravel's `Response::failed()`: a client or server error status. A 3xx is neither. */
  predicate Failed(status: int)
  {
    status >= 400
  }

  /** A request the relying party sends. */
  datatype Outbound =
    | TokenPost(url: string, form: seq<(string, string)>, timeout: int)
    | UserInfoGet(url: string, bearer: Json, timeout: int)
    | RevokePost(url: string, token: Json, tokenTypeHint: string, timeout: int)
}

=== FILE: json.dfy ===
/**
 * Decoded JSON values as PHP holds them after `json_decode($body, true)`,
 * with the parts of PHP's loose semantics the relying party relies on:
 * truthiness (`if ($x)`, `empty()`), `?? null` lookups, plain `$m[$k]` reads and
 * string conversion. A PHP warning (an undefined key, an array used as text) becomes
 * an exception under Laravel's error handler; the functions give None for it.
 */
module Json {
  import opened Wrappers

  /** A JSON value. Arrays and objects are both PHP arrays; only their size matters here. */
  datatype Json = JNull | JBool(b: bool) | JInt(i: int) | JStr(s: string) | JArray(size: nat)

  /** A decoded JSON object: a token response, a claims set, a database row. */
  type JsonObject = map<string, Json>

  /** PHP truthiness: null, false, 0, "", "0" and the empty array are falsy. */
  predicate Truthy(v: Json)
  {
    match v
    case JNull => false
    case JBool(b) => b
    case JInt(i) => i != 0
    case JStr(s) => s != "" && s != "0"
    case JArray(n) => n > 0
  }

  /** The values PHP's manual lists as converting to false. */
  const Falsy: set<Json> := {JNull, JBool(false), JInt(0), JStr(""), JStr("0"), JArray(0)}

  /** Truthiness agrees with the manual's list of false values. */
  lemma TruthyIffNotFalsy(v: Json)
    ensures Truthy(v) <==> v !in Falsy
  {
    if !Truthy(v) {
      match v
      case JStr(s) => assert s == "" || s == "0";
      case _ =>
    }
  }

  /** `$m[$k] ?? null` */
  function Get(m: JsonObject, k: string): Json
  {
    if k in m then m[k] else JNull
  }

  /** `$m[$k]` without a default: None is the "Undefined array key" warning. */
  function Index(m: JsonObject, k: string): Option<Json>
  {
    if k in m then Some(m[k]) else None
  }

  /** `empty($m[$k])`: the key is absent or holds a falsy value. */
  predicate Empty(m: JsonObject, k: string)
  {
    !Truthy(Get(m, k))
  }

  /** `$a ?? $b` */
  function Coalesce(a: Json, b: Json): Json
  {
    if a != JNull then a else b
  }

  /**
   * PHP's string conversion of `$v` when it is concatenated into a message; None is
   * the "Array to string conversion" warning.
   */
  function ToText(v: Json): Option<string>
  {
    match v
    case JNull => Some("")
    case JBool(b) => Some(if b then "1" else "")
    case JInt(i) => Some(if i < 0 then "-" + Decimal(-i) else Decimal(i))
    case JStr(s) => Some(s)
    case JArray(_) => None
  }

  /** Decimal digits of a natural number, most significant first. */
  function Decimal(n: nat): string
    decreases n
  {
    if n < 10 then [('0' as int + n) as char] else Decimal(n / 10) + [('0' as int + n % 10) as char]
  }
}

=== FILE: scenarios.dfy ===
/**
 * The login flow end to end on one controller: redirect, callback, exchange; and
 * what a replay of either leg gets.
 */
module Scenarios {
  import opened Wrappers
  import opened Json
  import opened Http
  import Bytes
  import Base64
  import Config
  import opened Users
  import Cache
  import Service
  import opened Controller

  /** A new controller after one `redirect`: exactly that attempt is pending, and the cache is empty. */
  method Start(config: Config.Config, users: UserTable, state: string, verifier: string,
               sha256: string -> seq<Bytes.Byte>)
    returns (controller: OidcController)
    requires Config.Valid(config) && UniqueIdentifiers(users.rows, config.identifierColumn)
    requires |state| == 40 && Alphanumeric(state) && |verifier| == 128 && Alphanumeric(verifier)
    requires forall s :: |sha256(s)| == 32
    ensures fresh(controller) && controller.Valid() && controller.config == config && controller.users == users
    ensures controller.session == map[StateKey := state, VerifierKey := verifier] && controller.cache == map[]
    ensures StateAccepted(Pending(controller.session, StateKey), Some(state))
  {
    controller := new OidcController(config, users);
    var url := controller.Redirect(state, verifier, sha256);
    SessionKeysDistinct();
    assert Pending(controller.session, StateKey) == Some(state);
  }

  /**
   * A browser that completes the redirect and comes back with the same state, on a
   * provider that answers both requests, is sent to the frontend with a fresh
   * exchange code; the user is stored and the code maps to that user until the ttl ends.
   */
  method SignIn(config: Config.Config, users: UserTable, state: string, verifier: string,
                sha256: string -> seq<Bytes.Byte>, request: CallbackRequest,
                tokenReply: HttpOutcome, userInfoReply: HttpOutcome, exchangeCode: string, now: int)
    returns (controller: OidcController, response: CallbackResponse)
    requires Config.Valid(config) && UniqueIdentifiers(users.rows, config.identifierColumn)
    requires |state| == 40 && Alphanumeric(state) && |verifier| == 128 && Alphanumeric(verifier)
    requires forall s :: |sha256(s)| == 32
    requires request.error.None? && request.state == Some(state)
    requires Authenticate(config, tokenReply, userInfoReply).Success?
    requires SignInResolves(config, tokenReply, userInfoReply)
    requires Cache.IsUuid(exchangeCode)
    modifies users
    ensures fresh(controller) && controller.Valid() && controller.config == config && controller.users == users
    ensures users.rows == SignedIn(config, old(users.rows), tokenReply, userInfoReply).0
    ensures controller.cache == Cache.Put(map[], Cache.Key(exchangeCode),
      JInt(SignedIn(config, old(users.rows), tokenReply, userInfoReply).1), now, config.exchangeCodeTtl * 60)
    ensures StateKey !in controller.session
    ensures response == RedirectTo(config.frontendUrl + "/auth/callback?code=" + exchangeCode)
  {
    controller := Start(config, users, state, verifier, sha256);
    var calls;
    response, calls := controller.Callback(request, tokenReply, userInfoReply, exchangeCode, now);
  }

  /**
   * After a sign-in, redeeming the exchange code within its ttl yields an API token
   * for the stored user. Replaying the callback is refused with 403, and replaying
   * the exchange code with 401.
   */
  method LoginFlow(config: Config.Config, users: UserTable, state: string, verifier: string,
                   sha256: string -> seq<Bytes.Byte>, authCode: string,
                   tokenReply: HttpOutcome, userInfoReply: HttpOutcome,
                   exchangeCode: string, now: int, jwt: string)
    returns (replayedCallback: CallbackResponse, first: ExchangeResponse, replayedExchange: ExchangeResponse)
    requires Config.Valid(config) && config.exchangeCodeTtl > 0
    requires UniqueIdentifiers(users.rows, config.identifierColumn)
    requires |state| == 40 && Alphanumeric(state) && |verifier| == 128 && Alphanumeric(verifier)
    requires forall s :: |sha256(s)| == 32
    requires Authenticate(config, tokenReply, userInfoReply).Success?
    requires SignInResolves(config, tokenReply, userInfoReply)
    requires Cache.IsUuid(exchangeCode)
    modifies users
    ensures var (rows, id) := SignedIn(config, old(users.rows), tokenReply, userInfoReply);
      users.rows == rows && first == Exchanged(jwt, "Bearer", id, rows[id - 1])
    ensures replayedCallback == Abort(403, InvalidState)
    ensures replayedExchange == Rejected(401, InvalidExchangeCode)
  {
    ghost var stored := SignedIn(config, users.rows, tokenReply, userInfoReply);
    var request := CallbackRequest(authCode, Some(state), None, None);
    var controller, response := SignIn(config, users, state, verifier, sha256, request,
                                       tokenReply, userInfoReply, exchangeCode, now);

    var calls;
    replayedCallback, calls := controller.Callback(request, tokenReply, userInfoReply, exchangeCode, now);
    assert users.rows == stored.0;

    Cache.PutThenRead(map[], Cache.Key(exchangeCode), JInt(stored.1), now, config.exchangeCodeTtl * 60, now);
    first := controller.Exchange(exchangeCode, now, jwt);
    replayedExchange := controller.Exchange(exchangeCode, now, jwt);
  }

  /**
   * The worked example: with the shipped mapping, a first login whose token endpoint
   * answers AT1/RT1 and whose userinfo answers sub u1 and an email creates exactly one
   * user, identified by u1, named and addressed by that email, holding RT1.
   */
  lemma FirstLoginExample(host: string, clientId: string, clientSecret: string, redirectUri: string)
    ensures var c := Config.Default(host, clientId, clientSecret, redirectUri);
      var tokenReply := Responded(200, map["access_token" := JStr("AT1"), "refresh_token" := JStr("RT1")]);
      var userInfoReply := Responded(200, map["sub" := JStr("u1"), "email" := JStr("a@b.com")]);
      && Authenticate(c, tokenReply, userInfoReply).Success?
      && Config.MappingResolves(c.attributes, userInfoReply.body)
      && SignedIn(c, [], tokenReply, userInfoReply) ==
         ([map["oidc_sub" := JStr("u1"), "name" := JStr("a@b.com"), "email" := JStr("a@b.com"),
               "auth_server_refresh_token" := JStr("RT1")]], 1)
  {
    var c := Config.Default(host, clientId, clientSecret, redirectUri);
    var tokens := map["access_token" := JStr("AT1"), "refresh_token" := JStr("RT1")];
    var claims := map["sub" := JStr("u1"), "email" := JStr("a@b.com")];
    assert Get(tokens, "access_token") == JStr("AT1");
    assert Get(claims, c.identifierClaim) == JStr("u1");
    assert Authenticate(c, Responded(200, tokens), Responded(200, claims)) == Success((tokens, claims));
    ExampleAttributes();
    assert Get(tokens, "refresh_token") == JStr("RT1");
    ExampleStored(host, clientId, clientSecret, redirectUri);
  }

  /** In the worked example the shipped mapping names and addresses the user by the email claim. */
  lemma ExampleAttributes()
    ensures var claims := map["sub" := JStr("u1"), "email" := JStr("a@b.com")];
      && Config.MappingResolves(Config.DefaultAttributes(), claims)
      && Service.MapAttributes(Config.DefaultAttributes(), claims)
         == map["name" := JStr("a@b.com"), "email" := JStr("a@b.com")]
  {
    var claims := map["sub" := JStr("u1"), "email" := JStr("a@b.com")];
    var mapping := Config.DefaultAttributes();
    assert "name" !in claims;
    Config.DefaultResolvesIffEmail(claims);
    assert Service.MapAttributes(mapping[..1], claims) == map["name" := JStr("a@b.com")] by {
      assert mapping[..1][..0] == [];
    }
  }

  /** In the worked example the empty table gains one row, keyed by u1 and holding RT1. */
  lemma ExampleStored(host: string, clientId: string, clientSecret: string, redirectUri: string)
    ensures var c := Config.Default(host, clientId, clientSecret, redirectUri);
      Service.StoreUser([], c, map["sub" := JStr("u1"), "email" := JStr("a@b.com")], JStr("RT1"))
      == ([map["oidc_sub" := JStr("u1"), "name" := JStr("a@b.com"), "email" := JStr("a@b.com"),
               "auth_server_refresh_token" := JStr("RT1")]], 1)
  {
    var c := Config.Default(host, clientId, clientSecret, redirectUri);
    var claims := map["sub" := JStr("u1"), "email" := JStr("a@b.com")];
    var attributes := map["name" := JStr("a@b.com"), "email" := JStr("a@b.com")];
    ExampleAttributes();
    var row := map["oidc_sub" := JStr("u1")] + attributes;
    assert c.identifierColumn == "oidc_sub" && c.refreshTokenColumn == "auth_server_refresh_token";
    assert FindRow([], c.identifierColumn, JStr("u1")) == None;
    var empty: seq<Row> := [];
    assert empty + [row] == [row];
    assert Upsert(empty, c.identifierColumn, JStr("u1"), attributes) == ([row], 1);
    var stored := row[c.refreshTokenColumn := JStr("RT1")];
    assert [row][0 := stored] == [stored];
    assert Truthy(JStr("RT1"));
    assert stored ==
      map["oidc_sub" := JStr("u1"), "name" := JStr("a@b.com"), "email" := JStr("a@b.com"),
          "auth_server_refresh_token" := JStr("RT1")];
  }
}

=== FILE: service.dfy ===
/**
 * The service layer (src/Services/OidcService.php): the decisions taken on the
 * token and userinfo responses, the logout URL, the OIDC-user test, the mapping of
 * claims onto the local user and best-effort revocation of the stored refresh token.
 */
module Service {
  import opened Wrappers
  import opened Json
  import opened Http
  import opened UrlCodec
  import Config
  import opened Users

  /**
   * The exceptions the service raises. `ServerError` (OidcServerException) and
   * `ProtocolError` (OidcException) are taken to be runtime exceptions; `Unreachable`
   * is Laravel's ConnectionException. `Uncaught` is a PHP warning turned into an
   * ErrorException, or a TypeError, which is neither.
   */
  datatype OidcError =
    | ServerError(message: string, status: int)
    | ProtocolError(message: string)
    | Unreachable(message: string)
    | Uncaught(message: string)

  const TokenExchangeFailed := "Token exchange failed: "
  const MissingAccessToken := "Token response missing access_token"
  const UserInfoFailed := "Failed to fetch user info"
  const ArrayToString := "Array to string conversion"

  function MissingClaim(claim: string): string
  {
    "UserInfo response missing required claim: " + claim
  }

  /**
   * `error_description ?? error ?? 'Unknown error'` of an error response, as text:
   * the first of the two fields that is not null; None when that one is an array.
   */
  function ProviderReason(body: JsonObject): (r: Option<string>)
    ensures Get(body, "error_description") == JNull && Get(body, "error") == JNull ==> r == Some("Unknown error")
    ensures Get(body, "error_description").JStr? ==> r == Some(Get(body, "error_description").s)
    ensures Get(body, "error_description") == JNull && Get(body, "error").JStr? ==> r == Some(Get(body, "error").s)
    ensures r.None? <==>
      if Get(body, "error_description") != JNull then Get(body, "error_description").JArray?
      else Get(body, "error").JArray?
  {
    var reason := Coalesce(Get(body, "error_description"), Get(body, "error"));
    if reason == JNull then Some("Unknown error") else ToText(reason)
  }

  /** The form posted to the token endpoint (section 4.1.3 of RFC 6749, section 4.5 of RFC 7636). */
  function TokenRequest(c: Config.Config, code: string, verifier: string): Outbound
  {
    TokenPost(c.host + c.tokenPath,
      [ ("grant_type", "authorization_code"), ("client_id", c.clientId),
        ("client_secret", c.clientSecret), ("redirect_uri", c.redirectUri),
        ("code", code), ("code_verifier", verifier) ],
      c.timeout)
  }

  /** The decision `exchangeCodeForTokens` takes on the token endpoint's answer. */
  function ExchangeCodeForTokens(reply: HttpOutcome): (r: Result<JsonObject, OidcError>)
    ensures reply.ConnectionFailed? ==> r == Failure(Unreachable(reply.message))
    ensures reply.Responded? && Failed(reply.status) && ProviderReason(reply.body).Some? ==>
      r == Failure(ServerError(TokenExchangeFailed + ProviderReason(reply.body).value, reply.status))
    ensures reply.Responded? && Failed(reply.status) && ProviderReason(reply.body).None? ==>
      r == Failure(Uncaught(ArrayToString))
    ensures reply.Responded? && !Failed(reply.status) && Empty(reply.body, "access_token") ==>
      r == Failure(ProtocolError(MissingAccessToken))
    ensures r.Success? <==> reply.Responded? && !Failed(reply.status) && !Empty(reply.body, "access_token")
    ensures r.Success? ==> r.value == reply.body && Truthy(Get(r.value, "access_token"))
  {
    match reply
    case ConnectionFailed(message) => Failure(Unreachable(message))
    case Responded(status, body) =>
      if Failed(status) then
        match ProviderReason(body)
        case None => Failure(Uncaught(ArrayToString))
        case Some(reason) => Failure(ServerError(TokenExchangeFailed + reason, status))
      else if Empty(body, "access_token") then Failure(ProtocolError(MissingAccessToken))
      else Success(body)
  }

  /** The userinfo call's timeout: five seconds shorter than the configured one, but never below five. */
  function UserInfoTimeout(timeout: int): (t: int)
    ensures t >= 5 && t >= timeout - 5
    ensures t == 5 || t == timeout - 5
  {
    if timeout - 5 > 5 then timeout - 5 else 5
  }

  /** The bearer-authenticated GET of the userinfo endpoint. */
  function UserInfoRequest(c: Config.Config, accessToken: Json): Outbound
  {
    UserInfoGet(c.host + c.userinfoPath, accessToken, UserInfoTimeout(c.timeout))
  }

  /** The decision `fetchUserInfo` takes on the userinfo endpoint's answer. */
  function FetchUserInfo(c: Config.Config, reply: HttpOutcome): (r: Result<JsonObject, OidcError>)
    ensures reply.ConnectionFailed? ==> r == Failure(Unreachable(reply.message))
    ensures reply.Responded? && Failed(reply.status) ==> r == Failure(ServerError(UserInfoFailed, reply.status))
    ensures reply.Responded? && !Failed(reply.status) && Empty(reply.body, c.identifierClaim) ==>
      r == Failure(ProtocolError(MissingClaim(c.identifierClaim)))
    ensures r.Success? <==> reply.Responded? && !Failed(reply.status) && !Empty(reply.body, c.identifierClaim)
    ensures r.Success? ==> r.value == reply.body && Truthy(Get(r.value, c.identifierClaim))
  {
    match reply
    case ConnectionFailed(message) => Failure(Unreachable(message))
    case Responded(status, body) =>
      if Failed(status) then Failure(ServerError(UserInfoFailed, status))
      else if Empty(body, c.identifierClaim) then Failure(ProtocolError(MissingClaim(c.identifierClaim)))
      else Success(body)
  }

  // ------------------------------------------------------------------ logout

  /**
   * `getSsoLogoutUrl`: the provider's logout endpoint, whose query sends the browser
   * back to the frontend and carries nothing else.
   */
  function SsoLogoutUrl(c: Config.Config): (r: string)
    ensures var base := c.host + c.logoutPath;
      && |r| > |base| && r[..|base| + 1] == base + "?"
      && ParseQuery(r[|base| + 1..]) == Some([("post_logout_redirect_uri", c.frontendUrl)])
  {
    WithQuery(c.host + c.logoutPath, [("post_logout_redirect_uri", c.frontendUrl)])
  }

  // ------------------------------------------------------------ user mapping

  /**
   * `isOidcUser`: there is a user and its identifier column is not empty, i.e. holds
   * none of the values PHP's `empty()` accepts.
   */
  function IsOidcUser(c: Config.Config, user: Option<Row>): (r: bool)
    ensures r <==> user.Some? && Column(user.value, c.identifierColumn) !in Falsy
  {
    match user
    case None => false
    case Some(row) =>
      TruthyIffNotFalsy(Column(row, c.identifierColumn));
      Truthy(Column(row, c.identifierColumn))
  }

  /** The attribute array the `foreach` over the mapping builds; a later column overwrites an earlier one. */
  function MapAttributes(mapping: seq<(string, Config.Resolver)>, claims: JsonObject): map<string, Json>
    decreases |mapping|
  {
    if mapping == [] then map[]
    else
      var last := mapping[|mapping| - 1];
      MapAttributes(mapping[..|mapping| - 1], claims)[last.0 := Config.Resolved(last.1, claims)]
  }

  /** Every mapped column, and nothing else, is set to its resolver's value. */
  lemma {:induction false} MapAttributesSpec(mapping: seq<(string, Config.Resolver)>, claims: JsonObject)
    ensures forall col :: col in MapAttributes(mapping, claims) <==> Config.MapsColumn(mapping, col)
    ensures Config.DistinctColumns(mapping) ==>
      forall i :: 0 <= i < |mapping| ==>
        mapping[i].0 in MapAttributes(mapping, claims) &&
        MapAttributes(mapping, claims)[mapping[i].0] == Config.Resolved(mapping[i].1, claims)
    decreases |mapping|
  {
    if mapping != [] {
      var init := mapping[..|mapping| - 1];
      MapAttributesSpec(init, claims);
      forall col ensures col in MapAttributes(mapping, claims) <==> Config.MapsColumn(mapping, col) {
        if Config.MapsColumn(init, col) {
          var i :| 0 <= i < |init| && init[i].0 == col;
          assert mapping[i].0 == col;
        }
        if Config.MapsColumn(mapping, col) {
          var i :| 0 <= i < |mapping| && mapping[i].0 == col;
          if i < |init| {
            assert init[i].0 == col;
          }
        }
      }
      if Config.DistinctColumns(mapping) {
        assert Config.DistinctColumns(init);
        forall i | 0 <= i < |mapping|
          ensures mapping[i].0 in MapAttributes(mapping, claims)
          ensures MapAttributes(mapping, claims)[mapping[i].0] == Config.Resolved(mapping[i].1, claims)
        {
          assert Config.MapsColumn(mapping, mapping[i].0);
          if i < |init| {
            assert init[i] == mapping[i];
            assert mapping[i].0 != mapping[|mapping| - 1].0;
          }
        }
      }
    }
  }

  /**
   * The `foreach` loop of `findOrCreateUser` that fills `$attributes`; None when a
   * resolver raises, which ends the loop and the request.
   */
  method BuildAttributes(mapping: seq<(string, Config.Resolver)>, claims: JsonObject)
    returns (attributes: Option<map<string, Json>>)
    ensures attributes.Some? <==> Config.MappingResolves(mapping, claims)
    ensures attributes.Some? ==> attributes.value == MapAttributes(mapping, claims)
    ensures attributes.Some? ==> forall col :: col in attributes.value <==> Config.MapsColumn(mapping, col)
    ensures attributes.Some? && Config.DistinctColumns(mapping) ==>
      forall i :: 0 <= i < |mapping| ==>
        mapping[i].0 in attributes.value && Config.Resolve(mapping[i].1, claims) == Some(attributes.value[mapping[i].0])
  {
    var built := map[];
    for i := 0 to |mapping|
      invariant built == MapAttributes(mapping[..i], claims)
      invariant Config.MappingResolves(mapping[..i], claims)
    {
      var (column, resolver) := mapping[i];
      assert mapping[..i + 1][..i] == mapping[..i];
      match Config.Resolve(resolver, claims)
      case None =>
        return None;
      case Some(value) =>
        built := built[column := value];
        assert forall j :: 0 <= j < i + 1 ==> mapping[..i + 1][j] == mapping[j];
    }
    assert mapping[..|mapping|] == mapping;
    MapAttributesSpec(mapping, claims);
    return Some(built);
  }

  /**
   * What `findOrCreateUser` does to the user table when every resolver returns:
   * upsert on the identifier claim with the mapped attributes, then store the refresh
   * token if it is truthy. Gives the new rows and the id of the user. The identifier
   * is read as `$userData[$identifierClaim]`, which raises when the key is missing, so
   * the claim must be present (the lookup `Get` then reads exactly that entry).
   */
  function StoreUser(rows: seq<Row>, c: Config.Config, claims: JsonObject, refreshToken: Json): (r: (seq<Row>, nat))
    requires c.identifierClaim in claims
    ensures 1 <= r.1 <= |r.0|
  {
    var (upserted, id) := Upsert(rows, c.identifierColumn, Get(claims, c.identifierClaim), MapAttributes(c.attributes, claims));
    if Truthy(refreshToken) then
      (upserted[id - 1 := upserted[id - 1][c.refreshTokenColumn := refreshToken]], id)
    else (upserted, id)
  }

  /**
   * `findOrCreateUser`: None when a resolver raises or the identifier claim is missing
   * (an undefined array key), in both cases before the table is touched.
   */
  method FindOrCreateUser(users: UserTable, c: Config.Config, claims: JsonObject, refreshToken: Json)
    returns (id: Option<nat>)
    modifies users
    ensures id.None? <==> !Config.MappingResolves(c.attributes, claims) || c.identifierClaim !in claims
    ensures id.None? ==> users.rows == old(users.rows)
    ensures id.Some? ==>
      && c.identifierClaim in claims
      && (users.rows, id.value) == StoreUser(old(users.rows), c, claims, refreshToken)
  {
    var attributes := BuildAttributes(c.attributes, claims);
    if attributes.None? {
      return None;
    }
    if c.identifierClaim !in claims {
      return None;
    }
    var k := users.UpdateOrCreate(c.identifierColumn, Get(claims, c.identifierClaim), attributes.value);
    if Truthy(refreshToken) {
      users.Update(k, c.refreshTokenColumn, refreshToken);
    }
    return Some(k);
  }

  /** Writing a column other than the identifier column keeps identifiers unique. */
  lemma SetColumnKeepsUnique(rows: seq<Row>, k: nat, column: string, value: Json, identifierColumn: string)
    requires UniqueIdentifiers(rows, identifierColumn)
    requires k < |rows| && column != identifierColumn
    ensures UniqueIdentifiers(rows[k := rows[k][column := value]], identifierColumn)
  {
    var rows' := rows[k := rows[k][column := value]];
    assert forall i :: 0 <= i < |rows| ==> Column(rows'[i], identifierColumn) == Column(rows[i], identifierColumn);
  }

  /** Storing a user keeps the identifiers of the table unique. */
  lemma StoreUserKeepsIdentifiersUnique(rows: seq<Row>, c: Config.Config, claims: JsonObject, refreshToken: Json)
    requires Config.Valid(c) && UniqueIdentifiers(rows, c.identifierColumn)
    requires Truthy(Get(claims, c.identifierClaim))
    ensures UniqueIdentifiers(StoreUser(rows, c, claims, refreshToken).0, c.identifierColumn)
  {
    var attributes := MapAttributes(c.attributes, claims);
    var value := Get(claims, c.identifierClaim);
    MapAttributesSpec(c.attributes, claims);
    UpsertKeepsUnique(rows, c.identifierColumn, value, attributes);
    var (upserted, id) := Upsert(rows, c.identifierColumn, value, attributes);
    if Truthy(refreshToken) {
      SetColumnKeepsUnique(upserted, id - 1, c.refreshTokenColumn, refreshToken, c.identifierColumn);
    }
  }

  /**
   * The stored user holds the identifier claim and every mapped attribute; a row is
   * added exactly when no row held the identifier, and every other user is left as it was.
   */
  lemma StoreUserSpec(rows: seq<Row>, c: Config.Config, claims: JsonObject, refreshToken: Json)
    requires Config.Valid(c)
    requires c.identifierClaim in claims
    ensures var (rows', id) := StoreUser(rows, c, claims, refreshToken);
      && Column(rows'[id - 1], c.identifierColumn) == Get(claims, c.identifierClaim)
      && (forall i :: 0 <= i < |c.attributes| && c.attributes[i].0 != c.refreshTokenColumn ==>
            Column(rows'[id - 1], c.attributes[i].0) == Config.Resolved(c.attributes[i].1, claims))
      && |rows'| == (if FindRow(rows, c.identifierColumn, Get(claims, c.identifierClaim)).None? then |rows| + 1 else |rows|)
      && (forall j :: 0 <= j < |rows| && j != id - 1 ==> rows'[j] == rows[j])
    ensures var (rows', id) := StoreUser(rows, c, claims, refreshToken);
      var found := FindRow(rows, c.identifierColumn, Get(claims, c.identifierClaim));
      && (found.Some? ==>
            && id - 1 == found.value
            && forall k :: k != c.refreshTokenColumn && !Config.MapsColumn(c.attributes, k) ==>
                 Column(rows'[id - 1], k) == Column(rows[id - 1], k))
      && (found.None? ==>
            && id == |rows| + 1
            && forall k :: k != c.identifierColumn && k != c.refreshTokenColumn && !Config.MapsColumn(c.attributes, k) ==>
                 Column(rows'[id - 1], k) == JNull)
  {
    StoredRow(rows, c, claims, refreshToken);
    StoredTable(rows, c, claims, refreshToken);
    StoredColumns(rows, c, claims, refreshToken);
  }

  /**
   * `findOrCreateUser` writes the first row holding the identifier and keeps its
   * unmapped columns; a new user's row holds nothing it was not given.
   */
  lemma StoredColumns(rows: seq<Row>, c: Config.Config, claims: JsonObject, refreshToken: Json)
    requires Config.Valid(c)
    requires c.identifierClaim in claims
    ensures var (rows', id) := StoreUser(rows, c, claims, refreshToken);
      var found := FindRow(rows, c.identifierColumn, Get(claims, c.identifierClaim));
      && (found.Some? ==>
            && id - 1 == found.value
            && forall k :: k != c.refreshTokenColumn && !Config.MapsColumn(c.attributes, k) ==>
                 Column(rows'[id - 1], k) == Column(rows[id - 1], k))
      && (found.None? ==>
            && id == |rows| + 1
            && forall k :: k != c.identifierColumn && k != c.refreshTokenColumn && !Config.MapsColumn(c.attributes, k) ==>
                 Column(rows'[id - 1], k) == JNull)
  {
    UpsertedColumns(rows, c, claims);
    RefreshTokenOnlyColumn(rows, c, claims, refreshToken);
  }

  /** Writing the refresh token after the upsert changes no other column of the user's row. */
  lemma RefreshTokenOnlyColumn(rows: seq<Row>, c: Config.Config, claims: JsonObject, refreshToken: Json)
    requires c.identifierClaim in claims
    ensures var (rows', id) := StoreUser(rows, c, claims, refreshToken);
      var (upserted, id0) := Upsert(rows, c.identifierColumn, Get(claims, c.identifierClaim), MapAttributes(c.attributes, claims));
      && id == id0
      && rows'[id - 1] == if Truthy(refreshToken) then upserted[id - 1][c.refreshTokenColumn := refreshToken] else upserted[id - 1]
  {
  }

  /** The row `findOrCreateUser` writes holds the identifier claim and every mapped attribute. */
  lemma StoredRow(rows: seq<Row>, c: Config.Config, claims: JsonObject, refreshToken: Json)
    requires Config.Valid(c)
    requires c.identifierClaim in claims
    ensures var (rows', id) := StoreUser(rows, c, claims, refreshToken);
      && Column(rows'[id - 1], c.identifierColumn) == Get(claims, c.identifierClaim)
      && (forall i :: 0 <= i < |c.attributes| && c.attributes[i].0 != c.refreshTokenColumn ==>
            Column(rows'[id - 1], c.attributes[i].0) == Config.Resolved(c.attributes[i].1, claims))
  {
    UpsertedAttributes(rows, c, claims);
    var (upserted, id) := Upsert(rows, c.identifierColumn, Get(claims, c.identifierClaim), MapAttributes(c.attributes, claims));
    if Truthy(refreshToken) {
      var row := upserted[id - 1];
      var row' := row[c.refreshTokenColumn := refreshToken];
      assert StoreUser(rows, c, claims, refreshToken) == (upserted[id - 1 := row'], id);
      forall i | 0 <= i < |c.attributes| && c.attributes[i].0 != c.refreshTokenColumn
        ensures Column(row', c.attributes[i].0) == Config.Resolved(c.attributes[i].1, claims)
      {
        assert Column(row', c.attributes[i].0) == Column(row, c.attributes[i].0);
      }
    }
  }

  /** `findOrCreateUser` adds a row only for a new identifier and leaves every other user as it was. */
  lemma StoredTable(rows: seq<Row>, c: Config.Config, claims: JsonObject, refreshToken: Json)
    requires Config.Valid(c)
    requires c.identifierClaim in claims
    ensures var (rows', id) := StoreUser(rows, c, claims, refreshToken);
      && |rows'| == (if FindRow(rows, c.identifierColumn, Get(claims, c.identifierClaim)).None? then |rows| + 1 else |rows|)
      && (forall j :: 0 <= j < |rows| && j != id - 1 ==> rows'[j] == rows[j])
  {
    UpsertedAttributes(rows, c, claims);
  }

  /**
   * The upsert of `findOrCreateUser`, before the refresh token is written: the row
   * written holds the identifier claim and every resolver's value under its column.
   */
  lemma UpsertedAttributes(rows: seq<Row>, c: Config.Config, claims: JsonObject)
    requires Config.Valid(c)
    ensures var (upserted, id) := Upsert(rows, c.identifierColumn, Get(claims, c.identifierClaim), MapAttributes(c.attributes, claims));
      && Column(upserted[id - 1], c.identifierColumn) == Get(claims, c.identifierClaim)
      && (forall i :: 0 <= i < |c.attributes| ==>
            Column(upserted[id - 1], c.attributes[i].0) == Config.Resolved(c.attributes[i].1, claims))
      && |upserted| == (if FindRow(rows, c.identifierColumn, Get(claims, c.identifierClaim)).None? then |rows| + 1 else |rows|)
      && (forall j :: 0 <= j < |rows| && j != id - 1 ==> upserted[j] == rows[j])
  {
    var attributes := MapAttributes(c.attributes, claims);
    MapAttributesSpec(c.attributes, claims);
    UpsertSpec(rows, c.identifierColumn, Get(claims, c.identifierClaim), attributes);
    var (upserted, id) := Upsert(rows, c.identifierColumn, Get(claims, c.identifierClaim), attributes);
    forall i | 0 <= i < |c.attributes|
      ensures Column(upserted[id - 1], c.attributes[i].0) == Config.Resolved(c.attributes[i].1, claims)
    {
      assert attributes[c.attributes[i].0] == Config.Resolved(c.attributes[i].1, claims);
    }
  }

  /** The upsert of `findOrCreateUser` keeps the unmapped columns of the row it writes. */
  lemma UpsertedColumns(rows: seq<Row>, c: Config.Config, claims: JsonObject)
    requires Config.Valid(c)
    ensures var (upserted, id) := Upsert(rows, c.identifierColumn, Get(claims, c.identifierClaim), MapAttributes(c.attributes, claims));
      var found := FindRow(rows, c.identifierColumn, Get(claims, c.identifierClaim));
      && (found.Some? ==>
            && id - 1 == found.value
            && forall k :: !Config.MapsColumn(c.attributes, k) ==> Column(upserted[id - 1], k) == Column(rows[id - 1], k))
      && (found.None? ==>
            && id == |rows| + 1
            && forall k :: k != c.identifierColumn && !Config.MapsColumn(c.attributes, k) ==> Column(upserted[id - 1], k) == JNull)
  {
    var attributes := MapAttributes(c.attributes, claims);
    var value := Get(claims, c.identifierClaim);
    MapAttributesSpec(c.attributes, claims);
    UpsertSpec(rows, c.identifierColumn, value, attributes);
    var (upserted, id) := Upsert(rows, c.identifierColumn, value, attributes);
    if FindRow(rows, c.identifierColumn, value).Some? {
      forall k | !Config.MapsColumn(c.attributes, k)
        ensures Column(upserted[id - 1], k) == Column(rows[id - 1], k)
      {
        assert k !in attributes;
      }
    } else {
      forall k | k != c.identifierColumn && !Config.MapsColumn(c.attributes, k)
        ensures Column(upserted[id - 1], k) == JNull
      {
        assert k !in attributes;
      }
    }
  }

  /**
   * The refresh token is written only when one is supplied: otherwise the user keeps
   * the token stored before (none, for a new user).
   */
  lemma RefreshTokenKeptWhenOmitted(rows: seq<Row>, c: Config.Config, claims: JsonObject, refreshToken: Json)
    requires !Config.MapsColumn(c.attributes, c.refreshTokenColumn)
    requires c.identifierClaim in claims
    ensures var (rows', id) := StoreUser(rows, c, claims, refreshToken);
      var found := FindRow(rows, c.identifierColumn, Get(claims, c.identifierClaim));
      Column(rows'[id - 1], c.refreshTokenColumn) ==
        if Truthy(refreshToken) then refreshToken
        else if found.Some? then Column(rows[found.value], c.refreshTokenColumn)
        else if c.refreshTokenColumn == c.identifierColumn then Get(claims, c.identifierClaim)
        else JNull
  {
    MapAttributesSpec(c.attributes, claims);
  }

  /** Logging in twice with the same identifier updates the first login's row and adds none. */
  lemma RepeatLoginAddsNoRow(rows: seq<Row>, c: Config.Config, first: JsonObject, firstToken: Json,
                             second: JsonObject, secondToken: Json)
    requires Config.Valid(c) && UniqueIdentifiers(rows, c.identifierColumn)
    requires Truthy(Get(first, c.identifierClaim))
    requires Get(second, c.identifierClaim) == Get(first, c.identifierClaim)
    ensures var (rows1, id1) := StoreUser(rows, c, first, firstToken);
      var (rows2, id2) := StoreUser(rows1, c, second, secondToken);
      id2 == id1 && |rows2| == |rows1|
  {
    StoreUserSpec(rows, c, first, firstToken);
    StoreUserKeepsIdentifiersUnique(rows, c, first, firstToken);
    var (rows1, id1) := StoreUser(rows, c, first, firstToken);
    FindUniqueRow(rows1, c.identifierColumn, id1 - 1);
  }

  /** A user the callback has just stored is an OIDC user. */
  lemma StoredUserIsOidcUser(rows: seq<Row>, c: Config.Config, claims: JsonObject, refreshToken: Json)
    requires Config.Valid(c) && UniqueIdentifiers(rows, c.identifierColumn)
    requires Truthy(Get(claims, c.identifierClaim))
    ensures var (rows', id) := StoreUser(rows, c, claims, refreshToken);
      IsOidcUser(c, Some(rows'[id - 1]))
  {
    StoreUserSpec(rows, c, claims, refreshToken);
  }

  // --------------------------------------------------------------- revocation

  /** Nothing to revoke: no user, or an empty refresh-token column. */
  predicate NothingToRevoke(rows: seq<Row>, c: Config.Config, user: Option<nat>)
    requires user.Some? ==> 1 <= user.value <= |rows|
  {
    user.None? || !Truthy(Column(rows[user.value - 1], c.refreshTokenColumn))
  }

  /** The revocation request of section 2.1 of RFC 7009, with client credentials as basic auth. */
  function RevokeRequest(c: Config.Config, token: Json): Outbound
  {
    RevokePost(c.host + c.revokePath, token, "refresh_token", c.timeout)
  }

  /** `revokeAuthServerToken`: best effort, clearing the stored token only when the provider accepted. */
  method RevokeAuthServerToken(users: UserTable, c: Config.Config, user: Option<nat>, reply: HttpOutcome)
    returns (revoked: bool, call: Option<Outbound>)
    requires user.Some? ==> 1 <= user.value <= |users.rows|
    modifies users
    ensures NothingToRevoke(old(users.rows), c, user) ==>
      revoked && call == None && users.rows == old(users.rows)
    ensures !NothingToRevoke(old(users.rows), c, user) ==>
      var k := user.value - 1;
      && call == Some(RevokeRequest(c, Column(old(users.rows)[k], c.refreshTokenColumn)))
      && revoked == (reply.Responded? && Successful(reply.status))
      && users.rows == if revoked then old(users.rows)[k := old(users.rows)[k][c.refreshTokenColumn := JNull]]
                       else old(users.rows)
    ensures Config.Valid(c) && old(UniqueIdentifiers(users.rows, c.identifierColumn)) ==>
      UniqueIdentifiers(users.rows, c.identifierColumn)
  {
    if user.None? || !Truthy(Column(users.rows[user.value - 1], c.refreshTokenColumn)) {
      return true, None;
    }
    var id := user.value;
    call := Some(RevokeRequest(c, Column(users.rows[id - 1], c.refreshTokenColumn)));
    match reply
    case ConnectionFailed(_) =>
      revoked := false;
    case Responded(status, _) =>
      if Successful(status) {
        if Config.Valid(c) && UniqueIdentifiers(users.rows, c.identifierColumn) {
          SetColumnKeepsUnique(users.rows, id - 1, c.refreshTokenColumn, JNull, c.identifierColumn);
        }
        users.Update(id, c.refreshTokenColumn, JNull);
        revoked := true;
      } else {
        revoked := false;
      }
  }
}

=== FILE: urlcodec.dfy ===
/**
 * PHP's `urlencode` and `http_build_query`, which build the query strings of the
 * authorize, error and logout redirects. A Dafny string stands for Unicode text,
 * whose PHP representation is its UTF-8 encoding; `urlencode` keeps ASCII letters,
 * digits and "-_.", turns a space into '+', and writes every other byte as '%'
 * followed by two upper-case hexadecimal digits.
 *
 * The decoding half (percent-decoding, UTF-8 decoding, splitting a query on '&'
 * and '=') is the reference against which the encoders are proved lossless.
 */
module UrlCodec {
  import opened Wrappers
  import opened Bytes

  // ---------------------------------------------------------------- UTF-8

  /** The UTF-8 encoding of one character (RFC 3629, section 3). */
  function Utf8(c: char): (r: seq<Byte>)
    ensures 1 <= |r| <= 4
  {
    var n := c as int;
    if n < 0x80 then [n]
    else if n < 0x800 then [0xC0 + n / 64, 0x80 + n % 64]
    else if n < 0x10000 then [0xE0 + n / 4096, 0x80 + (n / 64) % 64, 0x80 + n % 64]
    else [0xF0 + n / 262144, 0x80 + (n / 4096) % 64, 0x80 + (n / 64) % 64, 0x80 + n % 64]
  }

  predicate Continuation(b: Byte)
  {
    0x80 <= b < 0xC0
  }

  /** Decodes the character at the head of `b`, with the number of bytes it takes. */
  function Utf8Head(b: seq<Byte>): (r: Option<(char, nat)>)
    requires |b| > 0
    ensures r.Some? ==> 1 <= r.value.1 <= |b|
  {
    var b0: int := b[0];
    if b0 < 0x80 then Some((b0 as char, 1))
    else if 0xC0 <= b0 < 0xE0 && |b| >= 2 && Continuation(b[1]) then
      Some((((b0 - 0xC0) * 64 + (b[1] as int - 0x80)) as char, 2))
    else if 0xE0 <= b0 < 0xF0 && |b| >= 3 && Continuation(b[1]) && Continuation(b[2]) then
      var n := (b0 - 0xE0) * 4096 + (b[1] as int - 0x80) * 64 + (b[2] as int - 0x80);
      if 0xD800 <= n < 0xE000 then None else Some((n as char, 3))
    else if 0xF0 <= b0 < 0xF8 && |b| >= 4 && Continuation(b[1]) && Continuation(b[2]) && Continuation(b[3]) then
      var n := (b0 - 0xF0) * 262144 + (b[1] as int - 0x80) * 4096 + (b[2] as int - 0x80) * 64 + (b[3] as int - 0x80);
      if n < 0x10000 || n > 0x10FFFF then None else Some((n as char, 4))
    else None
  }

  function Utf8Decode(b: seq<Byte>): Option<string>
    decreases |b|
  {
    if b == [] then Some([])
    else
      match Utf8Head(b)
      case None => None
      case Some((c, k)) =>
        match Utf8Decode(b[k..])
        case None => None
        case Some(rest) => Some([c] + rest)
  }

  lemma Utf8HeadOfUtf8(c: char, rest: seq<Byte>)
    ensures Utf8Head(Utf8(c) + rest) == Some((c, |Utf8(c)|))
  {
    var n := c as int;
    if n < 0x80 {
    } else if n < 0x800 {
      Utf8HeadTwo(c, rest);
    } else if n < 0x10000 {
      Utf8HeadThree(c, rest);
    } else {
      Utf8HeadFour(c, rest);
    }
  }

  lemma Utf8HeadTwo(c: char, rest: seq<Byte>)
    requires 0x80 <= c as int < 0x800
    ensures Utf8Head(Utf8(c) + rest) == Some((c, 2))
  {
    var n := c as int;
    var b := Utf8(c) + rest;
    var b0: int, b1: int := b[0], b[1];
    assert b0 == 0xC0 + n / 64 && b1 == 0x80 + n % 64;
    assert (b0 - 0xC0) * 64 + (b1 - 0x80) == n;
  }

  lemma Utf8HeadThree(c: char, rest: seq<Byte>)
    requires 0x800 <= c as int < 0x10000
    ensures Utf8Head(Utf8(c) + rest) == Some((c, 3))
  {
    var n := c as int;
    var b := Utf8(c) + rest;
    var b0: int, b1: int, b2: int := b[0], b[1], b[2];
    assert b0 == 0xE0 + n / 4096 && b1 == 0x80 + (n / 64) % 64 && b2 == 0x80 + n % 64;
    assert n / 64 == (n / 4096) * 64 + (n / 64) % 64;
    assert (b0 - 0xE0) * 4096 + (b1 - 0x80) * 64 + (b2 - 0x80) == n;
    assert !(0xD800 <= n < 0xE000);
  }

  lemma Utf8HeadFour(c: char, rest: seq<Byte>)
    requires 0x10000 <= c as int
    ensures Utf8Head(Utf8(c) + rest) == Some((c, 4))
  {
    var n := c as int;
    var b := Utf8(c) + rest;
    var b0: int, b1: int, b2: int, b3: int := b[0], b[1], b[2], b[3];
    assert b0 == 0xF0 + n / 262144 && b1 == 0x80 + (n / 4096) % 64;
    assert b2 == 0x80 + (n / 64) % 64 && b3 == 0x80 + n % 64;
    assert n / 4096 == (n / 262144) * 64 + (n / 4096) % 64;
    assert n / 64 == (n / 4096) * 64 + (n / 64) % 64;
    assert (b0 - 0xF0) * 262144 + (b1 - 0x80) * 4096 + (b2 - 0x80) * 64 + (b3 - 0x80) == n;
  }

  // ------------------------------------------------------- percent-encoding

  /** Characters `urlencode` copies unchanged. */
  predicate Unreserved(c: char)
  {
    'A' <= c <= 'Z' || 'a' <= c <= 'z' || '0' <= c <= '9' || c == '-' || c == '_' || c == '.'
  }

  function HexDigit(n: int): char
    requires 0 <= n < 16
  {
    if n < 10 then ('0' as int + n) as char else ('A' as int + (n - 10)) as char
  }

  predicate IsHex(c: char)
  {
    '0' <= c <= '9' || 'A' <= c <= 'F' || 'a' <= c <= 'f'
  }

  function HexValue(c: char): (n: int)
    requires IsHex(c)
    ensures 0 <= n < 16
  {
    if '0' <= c <= '9' then c as int - '0' as int
    else if 'A' <= c <= 'F' then c as int - 'A' as int + 10
    else c as int - 'a' as int + 10
  }

  lemma HexDigitValue(n: int)
    requires 0 <= n < 16
    ensures IsHex(HexDigit(n)) && HexValue(HexDigit(n)) == n
  {
  }

  /** "%XY" for every byte. */
  function PercentBytes(b: seq<Byte>): string
    decreases |b|
  {
    if b == [] then "" else ['%', HexDigit(b[0] / 16), HexDigit(b[0] % 16)] + PercentBytes(b[1..])
  }

  /** `urlencode` of one character; its output never holds a query separator. */
  function EncodeChar(c: char): (r: string)
    ensures forall i :: 0 <= i < |r| ==> EncodedChar(r[i])
  {
    PercentBytesEncoded(Utf8(c));
    if Unreserved(c) then [c] else if c == ' ' then "+" else PercentBytes(Utf8(c))
  }

  /**
   * PHP's `urlencode`. Its output is drawn from the unreserved characters, '+' and '%'
   * only, so it never contains the separators '&' and '=' of a query.
   */
  function UrlEncode(s: string): (r: string)
    ensures forall i :: 0 <= i < |r| ==> EncodedChar(r[i])
    decreases |s|
  {
    if s == [] then "" else EncodeChar(s[0]) + UrlEncode(s[1..])
  }

  /** The bytes `urldecode` produces: '+' is a space, "%XY" a byte, any other character its UTF-8 bytes. */
  function PercentDecode(t: string): seq<Byte>
    decreases |t|
  {
    if t == [] then []
    else if t[0] == '+' then [32] + PercentDecode(t[1..])
    else if t[0] == '%' && |t| >= 3 && IsHex(t[1]) && IsHex(t[2]) then
      [HexValue(t[1]) * 16 + HexValue(t[2])] + PercentDecode(t[3..])
    else Utf8(t[0]) + PercentDecode(t[1..])
  }

  /** Decoding of one query component back into text. */
  function UrlDecode(t: string): Option<string>
  {
    Utf8Decode(PercentDecode(t))
  }

  /** The UTF-8 bytes of a whole text. */
  function Utf8Text(s: string): seq<Byte>
    decreases |s|
  {
    if s == [] then [] else Utf8(s[0]) + Utf8Text(s[1..])
  }

  lemma {:induction false} PercentDecodeBytes(b: seq<Byte>, rest: string)
    ensures PercentDecode(PercentBytes(b) + rest) == b + PercentDecode(rest)
    decreases |b|
  {
    if b != [] {
      var t := PercentBytes(b) + rest;
      assert t == ['%', HexDigit(b[0] / 16), HexDigit(b[0] % 16)] + (PercentBytes(b[1..]) + rest);
      assert t[0] == '%' && t[1] == HexDigit(b[0] / 16) && t[2] == HexDigit(b[0] % 16);
      HexDigitValue(b[0] / 16);
      HexDigitValue(b[0] % 16);
      assert HexValue(t[1]) * 16 + HexValue(t[2]) == b[0];
      assert PercentDecode(t) == [b[0]] + PercentDecode(t[3..]);
      assert t[3..] == PercentBytes(b[1..]) + rest;
      PercentDecodeBytes(b[1..], rest);
      assert b == [b[0]] + b[1..];
    } else {
      assert PercentBytes(b) + rest == rest;
    }
  }

  lemma PercentDecodeChar(c: char, rest: string)
    ensures PercentDecode(EncodeChar(c) + rest) == Utf8(c) + PercentDecode(rest)
  {
    if Unreserved(c) {
      assert ([c] + rest)[1..] == rest;
    } else if c == ' ' {
      assert ("+" + rest)[1..] == rest;
    } else {
      PercentDecodeBytes(Utf8(c), rest);
    }
  }

  lemma {:induction false} PercentDecodeUrlEncode(s: string)
    ensures PercentDecode(UrlEncode(s)) == Utf8Text(s)
    decreases |s|
  {
    if s != [] {
      PercentDecodeChar(s[0], UrlEncode(s[1..]));
      PercentDecodeUrlEncode(s[1..]);
    }
  }

  lemma {:induction false} Utf8DecodeText(s: string)
    ensures Utf8Decode(Utf8Text(s)) == Some(s)
    decreases |s|
  {
    if s != [] {
      var b := Utf8Text(s);
      Utf8HeadOfUtf8(s[0], Utf8Text(s[1..]));
      assert b[|Utf8(s[0])|..] == Utf8Text(s[1..]);
      Utf8DecodeText(s[1..]);
      assert s == [s[0]] + s[1..];
    }
  }

  /** `urlencode` loses nothing: decoding its output gives the text back. */
  lemma UrlDecodeEncode(s: string)
    ensures UrlDecode(UrlEncode(s)) == Some(s)
  {
    PercentDecodeUrlEncode(s);
    Utf8DecodeText(s);
  }

  /** Characters that can appear in `urlencode` output. */
  predicate EncodedChar(c: char)
  {
    Unreserved(c) || c == '+' || c == '%'
  }

  /** An escaped byte is written only with '%' and hexadecimal digits. */
  lemma {:induction false} PercentBytesEncoded(b: seq<Byte>)
    ensures forall i :: 0 <= i < |PercentBytes(b)| ==> PercentBytes(b)[i] == '%' || IsHex(PercentBytes(b)[i])
    ensures forall i :: 0 <= i < |PercentBytes(b)| ==> EncodedChar(PercentBytes(b)[i])
    decreases |b|
  {
    if b != [] {
      PercentBytesEncoded(b[1..]);
    }
  }

  /** On text made only of unreserved characters `urlencode` is the identity. */
  lemma {:induction false} UrlEncodeUnreserved(s: string)
    requires forall i :: 0 <= i < |s| ==> Unreserved(s[i])
    ensures UrlEncode(s) == s
    decreases |s|
  {
    if s != [] {
      UrlEncodeUnreserved(s[1..]);
      assert s == [s[0]] + s[1..];
    }
  }

  // ------------------------------------------------------------- queries

  /** `implode($sep, $parts)` */
  function Join(parts: seq<string>, sep: char): string
    decreases |parts|
  {
    if parts == [] then "" else if |parts| == 1 then parts[0] else parts[0] + [sep] + Join(parts[1..], sep)
  }

  /** `explode($sep, $s)` */
  function Split(s: string, sep: char): (r: seq<string>)
    ensures |r| > 0
    decreases |s|
  {
    if s == [] then [""]
    else if s[0] == sep then [""] + Split(s[1..], sep)
    else var tail := Split(s[1..], sep); [[s[0]] + tail[0]] + tail[1..]
  }

  /** The text before and after the first `sep`; all of `s` and "" when there is none. */
  function SplitFirst(s: string, sep: char): (string, string)
    decreases |s|
  {
    if s == [] then ("", "")
    else if s[0] == sep then ("", s[1..])
    else var (k, v) := SplitFirst(s[1..], sep); ([s[0]] + k, v)
  }

  /** One `key=value` field of `http_build_query`. */
  function Field(p: (string, string)): string
  {
    UrlEncode(p.0) + "=" + UrlEncode(p.1)
  }

  /** The encoded field of every pair, in order. */
  function Fields(ps: seq<(string, string)>): (r: seq<string>)
    ensures |r| == |ps|
    ensures forall j :: 0 <= j < |ps| ==> r[j] == Field(ps[j])
    decreases |ps|
  {
    if ps == [] then [] else [Field(ps[0])] + Fields(ps[1..])
  }

  /** PHP's `http_build_query` over string values; the pairs can be read back, in order. */
  function BuildQuery(ps: seq<(string, string)>): (r: string)
    ensures ParseQuery(r) == Some(ps)
  {
    ParseJoinedFields(ps);
    Join(Fields(ps), '&')
  }

  /** `$base.'?'.http_build_query($ps)`: the base, then a query that reads back as `ps`. */
  function WithQuery(base: string, ps: seq<(string, string)>): (r: string)
    ensures |r| > |base| && r[..|base| + 1] == base + "?"
    ensures ParseQuery(r[|base| + 1..]) == Some(ps)
  {
    var query := BuildQuery(ps);
    assert (base + "?" + query)[|base| + 1..] == query;
    base + "?" + query
  }

  function ParseField(f: string): Option<(string, string)>
  {
    var (k, v) := SplitFirst(f, '=');
    match (UrlDecode(k), UrlDecode(v))
    case (Some(key), Some(value)) => Some((key, value))
    case _ => None
  }

  function ParseFields(fs: seq<string>): Option<seq<(string, string)>>
    decreases |fs|
  {
    if fs == [] then Some([])
    else
      match (ParseField(fs[0]), ParseFields(fs[1..]))
      case (Some(p), Some(rest)) => Some([p] + rest)
      case _ => None
  }

  /** Reading a query string back into its ordered key/value pairs. */
  function ParseQuery(q: string): Option<seq<(string, string)>>
  {
    if q == "" then Some([]) else ParseFields(Split(q, '&'))
  }

  /** The value of the first pair with key `k`. */
  function Lookup(ps: seq<(string, string)>, k: string): Option<string>
    decreases |ps|
  {
    if ps == [] then None else if ps[0].0 == k then Some(ps[0].1) else Lookup(ps[1..], k)
  }

  /** A key is looked up at its first occurrence. */
  lemma {:induction false} LookupAt(ps: seq<(string, string)>, k: string, i: nat)
    requires i < |ps| && ps[i].0 == k
    requires forall j :: 0 <= j < i ==> ps[j].0 != k
    ensures Lookup(ps, k) == Some(ps[i].1)
    decreases i
  {
    if i > 0 {
      LookupAt(ps[1..], k, i - 1);
    }
  }

  lemma {:induction false} SplitPrefix(p: string, sep: char, rest: string)
    requires forall i :: 0 <= i < |p| ==> p[i] != sep
    ensures Split(p + [sep] + rest, sep) == [p] + Split(rest, sep)
    decreases |p|
  {
    if p != [] {
      assert (p + [sep] + rest)[1..] == p[1..] + [sep] + rest;
      SplitPrefix(p[1..], sep, rest);
      assert p == [p[0]] + p[1..];
    } else {
      assert ([sep] + rest)[1..] == rest;
    }
  }

  lemma {:induction false} SplitNoSep(p: string, sep: char)
    requires forall i :: 0 <= i < |p| ==> p[i] != sep
    ensures Split(p, sep) == [p]
    decreases |p|
  {
    if p != [] {
      SplitNoSep(p[1..], sep);
      assert p == [p[0]] + p[1..];
    }
  }

  /** Splitting undoes joining when no part contains the separator. */
  lemma {:induction false} SplitJoin(parts: seq<string>, sep: char)
    requires parts != []
    requires forall j, i :: 0 <= j < |parts| && 0 <= i < |parts[j]| ==> parts[j][i] != sep
    ensures Split(Join(parts, sep), sep) == parts
    decreases |parts|
  {
    if |parts| == 1 {
      SplitNoSep(parts[0], sep);
    } else {
      SplitJoin(parts[1..], sep);
      SplitPrefix(parts[0], sep, Join(parts[1..], sep));
      assert parts == [parts[0]] + parts[1..];
    }
  }

  lemma {:induction false} SplitFirstAt(k: string, sep: char, v: string)
    requires forall i :: 0 <= i < |k| ==> k[i] != sep
    ensures SplitFirst(k + [sep] + v, sep) == (k, v)
    decreases |k|
  {
    if k != [] {
      assert (k + [sep] + v)[1..] == k[1..] + [sep] + v;
      SplitFirstAt(k[1..], sep, v);
      assert k == [k[0]] + k[1..];
    } else {
      assert ([sep] + v)[1..] == v;
    }
  }

  lemma FieldHasNoAmpersand(p: (string, string))
    ensures forall i :: 0 <= i < |Field(p)| ==> Field(p)[i] != '&'
  {
    var k, v := UrlEncode(p.0), UrlEncode(p.1);
    var f := Field(p);
    assert f == k + "=" + v;
    forall i | 0 <= i < |f| ensures f[i] != '&' {
      if i < |k| {
        assert f[i] == k[i];
      } else if i > |k| {
        assert f[i] == v[i - |k| - 1];
      }
    }
  }

  lemma ParseFieldOfField(p: (string, string))
    ensures ParseField(Field(p)) == Some(p)
  {
    var k, v := UrlEncode(p.0), UrlEncode(p.1);
    assert forall i :: 0 <= i < |k| ==> k[i] != '=';
    SplitFirstAt(k, '=', v);
    assert Field(p) == k + ['='] + v;
    UrlDecodeEncode(p.0);
    UrlDecodeEncode(p.1);
  }

  lemma {:induction false} ParseFieldsOfFields(ps: seq<(string, string)>)
    ensures ParseFields(Fields(ps)) == Some(ps)
    decreases |ps|
  {
    if ps != [] {
      ParseFieldOfField(ps[0]);
      ParseFieldsOfFields(ps[1..]);
      assert Fields(ps)[1..] == Fields(ps[1..]);
      assert ps == [ps[0]] + ps[1..];
    }
  }

  /** The '&'-joined encoded fields parse back to the pairs, in order. */
  lemma ParseJoinedFields(ps: seq<(string, string)>)
    ensures ParseQuery(Join(Fields(ps), '&')) == Some(ps)
  {
    ParseFieldsOfFields(ps);
    if ps != [] {
      forall j, i | 0 <= j < |ps| && 0 <= i < |Fields(ps)[j]| ensures Fields(ps)[j][i] != '&' {
        FieldHasNoAmpersand(ps[j]);
      }
      SplitJoin(Fields(ps), '&');
      assert |Field(ps[0])| > 0 && Join(Fields(ps), '&') != "" by {
        assert Fields(ps)[0] == Field(ps[0]);
        if |ps| > 1 {
          assert Join(Fields(ps), '&') == Fields(ps)[0] + ['&'] + Join(Fields(ps)[1..], '&');
        }
      }
    }
  }
}

=== FILE: users.dfy ===
/**
 * The local user table as the relying party sees it through Eloquent's
 * `updateOrCreate` and `update`. Rows are never deleted and ids are assigned in
 * order, so the row with id `k` is `rows[k - 1]`, and `first()` is the lowest id.
 */
module Users {
  import opened Wrappers
  import opened Json

  /** A user row: column name to value; an absent column reads as null. */
  type Row = JsonObject

  /**
   * `$user->{$column}`: reading an attribute the row does not hold gives null, which is
   * `Json.Get` on the row; the table code reads columns through this name.
   */
  function Column(row: Row, column: string): Json
  {
    Get(row, column)
  }

  /** The unique index on the identifier column: non-null identifiers occur at most once. */
  ghost predicate UniqueIdentifiers(rows: seq<Row>, column: string)
  {
    forall i, j :: 0 <= i < j < |rows| && Column(rows[i], column) != JNull ==>
      Column(rows[i], column) != Column(rows[j], column)
  }

  /** `where($column, $value)->first()`: the index of the first row holding `value`. */
  function FindRow(rows: seq<Row>, column: string, value: Json): (r: Option<nat>)
    ensures r.Some? ==> r.value < |rows| && Column(rows[r.value], column) == value
    ensures r.Some? ==> forall j :: 0 <= j < r.value ==> Column(rows[j], column) != value
    ensures r.None? ==> forall j :: 0 <= j < |rows| ==> Column(rows[j], column) != value
    decreases |rows|
  {
    if rows == [] then None
    else if Column(rows[0], column) == value then Some(0)
    else
      match FindRow(rows[1..], column, value)
      case None => None
      case Some(k) => Some(k + 1)
  }

  /**
   * `updateOrCreate([$column => $value], $attributes)`: fill the first matching row
   * with the attributes, or append a row holding the identifier and the attributes.
   * Gives the new rows and the id of the row written.
   */
  function Upsert(rows: seq<Row>, column: string, value: Json, attributes: map<string, Json>): (r: (seq<Row>, nat))
    ensures 1 <= r.1 <= |r.0|
  {
    match FindRow(rows, column, value)
    case Some(i) => (rows[i := rows[i] + attributes], i + 1)
    case None => (rows + [map[column := value] + attributes], |rows| + 1)
  }

  /** With unique identifiers, the row holding a non-null identifier is the one `FindRow` finds. */
  lemma FindUniqueRow(rows: seq<Row>, column: string, k: nat)
    requires UniqueIdentifiers(rows, column)
    requires k < |rows| && Column(rows[k], column) != JNull
    ensures FindRow(rows, column, Column(rows[k], column)) == Some(k)
  {
  }

  /**
   * An upsert writes the identifier and the attributes into one row, adds a row
   * exactly when none held the identifier, and leaves every other row as it was.
   * The row written is the first match, whose other columns are kept; a new row
   * holds nothing but the identifier and the attributes.
   */
  lemma UpsertSpec(rows: seq<Row>, column: string, value: Json, attributes: map<string, Json>)
    requires column !in attributes
    ensures var (rows', id) := Upsert(rows, column, value, attributes);
      && Column(rows'[id - 1], column) == value
      && (forall c :: c in attributes ==> Column(rows'[id - 1], c) == attributes[c])
      && |rows'| == (if FindRow(rows, column, value).None? then |rows| + 1 else |rows|)
      && (forall j :: 0 <= j < |rows| && j != id - 1 ==> rows'[j] == rows[j])
    ensures var (rows', id) := Upsert(rows, column, value, attributes);
      var found := FindRow(rows, column, value);
      && (found.Some? ==>
            && id - 1 == found.value
            && forall c :: c !in attributes ==> Column(rows'[id - 1], c) == Column(rows[id - 1], c))
      && (found.None? ==>
            && id == |rows| + 1
            && forall c :: c != column && c !in attributes ==> Column(rows'[id - 1], c) == JNull)
  {
  }

  /** An upsert keyed on a non-null identifier keeps identifiers unique. */
  lemma UpsertKeepsUnique(rows: seq<Row>, column: string, value: Json, attributes: map<string, Json>)
    requires UniqueIdentifiers(rows, column)
    requires value != JNull && column !in attributes
    ensures UniqueIdentifiers(Upsert(rows, column, value, attributes).0, column)
  {
    UpsertSpec(rows, column, value, attributes);
    var (rows', id) := Upsert(rows, column, value, attributes);
    forall i, j | 0 <= i < j < |rows'| && Column(rows'[i], column) != JNull
      ensures Column(rows'[i], column) != Column(rows'[j], column)
    {
      assert Column(rows'[i], column) == Column(rows[i], column) || i == id - 1;
      assert j < |rows| ==> Column(rows'[j], column) == Column(rows[j], column) || j == id - 1;
    }
  }

  /** The user table Eloquent reads and writes. */
  class UserTable {
    var rows: seq<Row>

    constructor (rows: seq<Row>)
      ensures this.rows == rows
    {
      this.rows := rows;
    }

    method UpdateOrCreate(column: string, value: Json, attributes: map<string, Json>) returns (id: nat)
      modifies this
      ensures (rows, id) == Upsert(old(rows), column, value, attributes)
    {
      var found := FindRow(rows, column, value);
      match found
      case Some(i) =>
        rows := rows[i := rows[i] + attributes];
        id := i + 1;
      case None =>
        rows := rows + [map[column := value] + attributes];
        id := |rows|;
    }

    /** `$user->update([$column => $value])` on the row with id `id`. */
    method Update(id: nat, column: string, value: Json)
      requires 1 <= id <= |rows|
      modifies this
      ensures rows == old(rows)[id - 1 := old(rows)[id - 1][column := value]]
    {
      rows := rows[id - 1 := rows[id - 1][column := value]];
    }
  }
}

=== FILE: wrappers.dfy ===
/** Failure-compatible wrappers shared by the rest of the model. */
module Wrappers {

  datatype Option<+T> = None | Some(value: T)

  datatype Result<+R, +E> = Success(value: R) | Failure(error: E)
}
